=== FILE: README.md ===
# webOS web-app Wayland platform layer — Dafny model

This project models the bookkeeping that the webOS web application manager does
between a web application and its Wayland host window. Two classes are covered:

- `WebAppWayland`, the application's side. It handles the input region, key
  masks, location hints, the launch timer, and the activation, visibility and
  focus state machine. That machine is driven by host-window state changes,
  frame swaps, raise, go-background, hide and close.
- `WebAppWaylandWindow`, the window's side. It is a single-slot pool of
  pre-created windows and an event filter. The filter hides the pointer while
  the cursor is disabled and remembers the last mouse press. When focus is lost
  or the window is minimized, it completes a pending click with a synthesized
  release. It also has the key-filter lookup and XInput key injection.

Every call this layer makes into the web page (Blink), the host-window toolkit
(Wayland/Qt) or the application base class is recorded as an effect token
(`Types.Effect`) and not performed. There are three exceptions, where the
call's whole effect is a field of a record: resizing a pre-created window to
1x1 is the window's `size`, showing or hiding the cursor is the window's
`cursorVisible`, and the base class's `setHiddenWindow` is the application's
`hidden`. Every transition is a pure function that returns the new state
together with the effects, in call order (`Types.Step`). The window does not
call the application directly. It returns `AppCall` tokens, and `Platform`
composes the two sides by applying those calls to the application state.

Modules, one per file:

| file | module | models |
|---|---|---|
| types.dfy | Types | host states, rectangles, JSON shapes, effect tokens |
| location_hints.dfy | LocationHints | location-hint parsing and its use at window creation |
| key_masks.dfy | KeyMasks | key-mask table, `setKeyMask(json)`, key-mask side of `setWindowProperty` |
| input_region.dfy | InputRegion | `setInputRegion`, `applyInputRegion`, `moveInputRegion` |
| launch_timing.dfy | LaunchTiming | launch timer start, frame-swap re-arming, timeout |
| web_app.dfy | WebApp | the activation/visibility state machine of `WebAppWayland` |
| cursor_selection.dfy | CursorSelection | cursor-argument classification of `setCursor` (see Findings) |
| wayland_window.dfy | WaylandWindow | event filter, cursor, key filter, `sendKeyCode` |
| window_pool.dfy | WindowPool | `take`, `prepare`, `createWindow` |
| platform.dfy | Platform | a window and its application handling one event together |

Inputs that come from outside the layer are parameters:

- the host-window state;
- whether the page's load-error page has finished;
- the elapsed launch time and the launch-timeout period;
- the display size;
- whether the cursor is enabled by default (an environment setting);
- whether prerendering is used.

## Model

| member | source | states |
|---|---|---|
| LocationHints.ParseInvertsHintName | src/platform/WebAppWayland.cpp:76-95 | a string parses to one of the nine named hints exactly when it is that hint's own name |
| LocationHints.ParseUnknownOutsideNames | src/platform/WebAppWayland.cpp:76-95 | every string other than the nine names parses to Unknown, and those nine never do |
| LocationHints.LocationHintEffects | src/platform/WebAppWayland.cpp:110-113 | window creation sets the location hint only for a recognised name, and sets it at most once, to that name's hint |
| WebApp.InitEffects | src/platform/WebAppWayland.cpp:101-124 | the application's UI size and then the window are set to the requested size, or to the display size when either dimension is 0; the hint effects follow, then the window is attached to the application, then the creation properties |
| WebApp.CreationProperties | src/platform/WebAppWayland.cpp:117-124 | creation sets the window-type property, then the display-affinity property exactly when a display is given, each forwarded unchanged |
| KeyMasks.FoldCoversEachName | src/platform/WebAppWayland.cpp:428-441 | the folded mask contains the table bits of every name in the list |
| KeyMasks.FoldIsLeast | src/platform/WebAppWayland.cpp:428-441 | the folded mask has no bit that no listed name contributes, so it is the bitwise OR of the table values |
| KeyMasks.FoldDependsOnlyOnNameSet | src/platform/WebAppWayland.cpp:428-441 | two lists with the same names give the same mask, whatever their order or repetitions |
| KeyMasks.FoldSkipsUnknownName | src/platform/WebAppWayland.cpp:400-437 | a name missing from the table contributes 0 to the mask |
| KeyMasks.DocumentKeyMask | src/platform/WebAppWayland.cpp:428-441 | a non-array document gives mask 0; an array gives the least mask that covers every listed name |
| KeyMasks.AccumulateMasks | src/platform/WebAppWayland.cpp:431-438 | the OR-accumulating loop over the listed names computes the same mask as the recursive fold |
| KeyMasks.ComputeKeyMask | src/platform/WebAppWayland.cpp:428-441 | `setKeyMask(json)` computes 0 for a non-array document, and for an array the least mask covering every listed name |
| KeyMasks.KeyMaskDocumentEffects | src/platform/WebAppWayland.cpp:428-441 | `setKeyMask(json)` makes exactly one key-mask call, with the document's mask |
| KeyMasks.WindowPropertyEffects | src/platform/WebAppWayland.cpp:377-388 | the BACK and EXIT policy properties first set their own key-mask bit to the value's boolean; every property is then forwarded as its last call; any other property is only forwarded |
| KeyMasks.PropertyTouchesKeyMaskOnlyForPolicyKeys | src/platform/WebAppWayland.cpp:377-388 | a property touches a key mask if and only if it is one of the two policy properties |
| InputRegion.SetInputRegion | src/platform/WebAppWayland.cpp:356-374 | the region is replaced by one scaled rectangle per array element, or by the empty region for a non-array; it is pushed to the window; the enabled flag and keyboard height are unchanged |
| InputRegion.ApplyInputRegion | src/platform/WebAppWayland.cpp:348-354 | afterwards the region is enabled if and only if it was enabled or is non-empty; it is pushed exactly when it was disabled and non-empty |
| InputRegion.ApplyInputRegionIdempotent | src/platform/WebAppWayland.cpp:348-354 | a second apply changes nothing and pushes nothing |
| InputRegion.MoveInputRegion | src/platform/WebAppWayland.cpp:748-770 | when the region is disabled, nothing happens; otherwise the length and each rectangle's x, width and height are kept, and y drops by the new keyboard height (the given height if non-zero, else the negated old one) |
| InputRegion.MoveThenRestore | src/platform/WebAppWayland.cpp:748-770 | a move by a non-zero height followed by a move by 0 restores the original rectangles |
| InputRegion.RepeatedHideShiftsAgain | src/platform/WebAppWayland.cpp:753-756 | a second move by 0 shifts the region up by the keyboard height again |
| InputRegion.ResizeThenHideKeepsFirstShift | src/platform/WebAppWayland.cpp:753-756 | two non-zero moves followed by a move by 0 leave the region shifted by the first height |
| LaunchTiming.Start | src/platform/WebAppWayland.cpp:135-141 | the elapsed timer starts only when the window is not hidden; the timeout, its period and the recorded time are kept |
| LaunchTiming.FrameSwapped | src/platform/WebAppWayland.cpp:143-153 | while the timer runs, a swap records the elapsed time and re-arms the timeout with the given period; otherwise it changes nothing |
| LaunchTiming.Timeout | src/platform/WebAppWayland.cpp:155-162 | while the timer runs, a timeout stops both timers and keeps the recorded time and the armed period; otherwise it changes nothing |
| LaunchTiming.OperationsPreserveValid | src/platform/WebAppWayland.cpp:135-162 | no operation leaves the timeout armed without the elapsed timer running |
| LaunchTiming.SwapAfterTimeoutIsIgnored | src/platform/WebAppWayland.cpp:143-162 | after a timeout, frame swaps record nothing |
| LaunchTiming.HiddenLaunchRecordsNothing | src/platform/WebAppWayland.cpp:135-162 | a launch with a hidden window never starts measuring |
| WebApp.StartLaunchTimer | src/platform/WebAppWayland.cpp:135-141 | the launch timer starts only when the application is not hidden, and nothing else changes |
| WebApp.LaunchFrameSwapped | src/platform/WebAppWayland.cpp:143-153 | a swap records the elapsed time and arms the timeout only while the timer runs |
| WebApp.LaunchTimeout | src/platform/WebAppWayland.cpp:155-162 | the timeout stops a running timer, and nothing else changes |
| WebApp.ActivatedAndMinimizedExclusive | src/platform/WebAppWayland.cpp:234-244 | no host state is both activated and minimized; every defined state is one of the two |
| WebApp.StageActivated | src/platform/WebAppWayland.cpp:251-268 | activation clears only the crash flag; it reloads the default page, first, exactly when the page had crashed; then it resumes the page, makes it visible, becomes the active instance and shows the window, each exactly once and in that order |
| WebApp.StageDeactivated | src/platform/WebAppWayland.cpp:270-279 | deactivation suspends media, removes page focus, reports the page hidden and suspends it, in that order; it clears focus and the frame-swap activation mark and nothing else |
| WebApp.Focus | src/platform/WebAppWayland.cpp:478-483 | focus always sets the flag, but gives the page focus, with exactly one call, only when the window is not minimized, and makes no call otherwise |
| WebApp.Unfocus | src/platform/WebAppWayland.cpp:485-489 | unfocus always clears both the flag and the page's focus |
| WebApp.StateChanged | src/platform/WebAppWayland.cpp:587-611 | ignored while closing or for an undefined state; a shown state is exactly the input-region apply followed by activation, with the state they produce; minimized is exactly a deactivation |
| WebApp.StateChangedEnablesRegion | src/platform/WebAppWayland.cpp:596-602 | a shown state clears the crash flag, keeps the rectangles, and leaves the region enabled exactly when it was enabled or non-empty |
| WebApp.StateChangedAppliesRegionThenActivates | src/platform/WebAppWayland.cpp:596-602 | a shown state activates without deactivating, and pushes a disabled, non-empty region to the window first, and only then |
| WebApp.StateAboutToChange | src/platform/WebAppWayland.cpp:578-585 | only an imminent minimize suspends media and reports the page hidden |
| WebApp.Raise | src/platform/WebAppWayland.cpp:513-530 | an overlay, or a kept-alive application that is not minimized, is activated, changing only the crash flag; otherwise fullscreen is requested and the state is unchanged; the effects are exactly the activation or the fullscreen request, followed, for a minimized application only, by reporting the page visible |
| WebApp.Hide | src/platform/WebAppWayland.cpp:469-476 | only a kept-alive application or a forced hide is affected: it becomes hidden, unfocused and un-marked, with exactly the deactivation effects followed by hiding the window |
| WebApp.HideWindow | src/platform/WebAppWayland.cpp:627-637 | hiding is refused, changing nothing, exactly when the load-error page has finished; otherwise it closes the keyboard, then force-hides, and leaves the window manager, with no other state change |
| WebApp.DoClose | src/platform/WebAppWayland.cpp:563-576 | a forced close wins; a kept-alive application is hidden rather than closed when hiding is possible, which is exactly hideWindow and requests no close; otherwise the application closes |
| WebApp.GoBackground | src/platform/WebAppWayland.cpp:532-541 | an overlay tries to close; any other window requests minimization |
| WebApp.ShowWindow | src/platform/WebAppWayland.cpp:613-625 | a preloaded application is left alone; otherwise it is un-hidden, activated and added to the window manager, with no other state change, and the activation effects are followed by the base-class show |
| WebApp.FirstFrameVisuallyCommitted | src/platform/WebAppWayland.cpp:650-662 | only a visible, non-preloaded application is affected: it is shown exactly as showWindow does; with prerendering, the frame-swap activation mark is cleared |
| WebApp.DidSwapPageCompositorFrame | src/platform/WebAppWayland.cpp:690-697 | a frame swap activates the stage if and only if it is not yet activated, not hidden and not preloading; it then sets the mark and changes nothing else; otherwise nothing changes |
| WebApp.SwapActivatesAtMostOnce | src/platform/WebAppWayland.cpp:690-697 | a second frame swap never activates again |
| WebApp.DeactivationRearmsSwapActivation | src/platform/WebAppWayland.cpp:270-279 | after deactivation, the next frame swap of a shown, non-preloaded application activates again |
| WebApp.SuspendAppRendering | src/platform/WebAppWayland.cpp:212-216 | suspending rendering is exactly a deactivation followed by hiding the window |
| WebApp.ResumeAppRendering | src/platform/WebAppWayland.cpp:218-222 | resuming rendering is exactly showing the window followed by the activation effects, and changes only the crash flag |
| WebApp.KeyboardVisibilityChanged | src/platform/WebAppWayland.cpp:772-775 | a keyboard change is reported and then moves the input region by the given height |
| WebApp.SendWebOSMouseEvent | src/platform/WebAppWayland.cpp:723-734 | Enter and Leave reach the page as exactly one dispatch of their own event; any other name makes no call |
| WebApp.FromInitialAppSwapMarkConsistent | src/platform/WebAppWayland.cpp:37-72 | a freshly constructed application is shown, unfocused, not activated and not closing, with the given launch mode, and after any run of transitions a frame-swap mark is held only by a shown, non-preloaded application |
| WebApp.RunOpsKeepSwapMark | src/platform/WebAppWayland.cpp:690-697 | a run of transitions from a state where the swap mark is consistent keeps it consistent |
| WebApp.OpsPreserveSwapMark | src/platform/WebAppWayland.cpp:690-697 | no transition leaves the frame-swap activation mark set on a hidden or preloading application |
| WebApp.OnlyShowWindowUnhides | src/platform/WebAppWayland.cpp:613-625 | every transition except showWindow leaves a hidden application hidden |
| WebApp.OpsKeepLaunchMode | src/platform/WebAppWayland.cpp:563-611 | no transition changes the preload, keep-alive, overlay or closing flags |
| WebApp.OnlyLaunchOpsTouchTimer | src/platform/WebAppWayland.cpp:135-162 | only the three launch-timer operations change the launch timer |
| WebApp.HidingOpsKeepTimer | src/platform/WebAppWayland.cpp:469-576 | hide, hideWindow, doClose, focus and unfocus leave the launch timer alone |
| WebApp.LaterOpsKeepTimer | src/platform/WebAppWayland.cpp:613-775 | showWindow, frame commit and swap, rendering suspend and resume, and keyboard changes leave the launch timer alone |
| CursorSelection.AsWrittenMisclassifies | src/platform/WebAppWaylandWindow.cpp:93-102 | as written, "default" selects the blank cursor, "blank" restores the platform cursor, and a cursor file is never selected |
| CursorSelection.CursorTypeForClassifies | src/platform/WebAppWaylandWindow.cpp:93-102 | in the intended classification, the platform cursor is chosen exactly for "" and "default", the blank cursor exactly for "blank", and a file for every other argument |
| WaylandWindow.SetCursorAsWritten | src/platform/WebAppWaylandWindow.cpp:90-110 | as written, the cursor is disabled exactly for "default", and nothing else in the window changes; the single custom-cursor call carries the as-written type, which is never a file, and the given argument and hotspot |
| WaylandWindow.SetCursor | src/platform/WebAppWaylandWindow.cpp:90-110 | with the intended comparisons, the cursor is disabled exactly for "blank"; one custom-cursor call is made and nothing else changes |
| WaylandWindow.NewWindow | src/platform/WebAppWaylandWindow.cpp:65-72 | a new window has no application, no remembered mouse type, XInput inactive, the cursor hidden, and the cursor enabled as the default setting says; it is unsized and in the default host state |
| WaylandWindow.CursorFilter | src/platform/WebAppWaylandWindow.cpp:213-223 | with the cursor disabled, the event is consumed and the cursor made invisible; with it enabled, the event is left unhandled and nothing changes |
| WaylandWindow.ReleasePending | src/platform/WebAppWaylandWindow.cpp:182-195 | a pending press becomes exactly one forwarded release with the press's flags; afterwards the last type is never Press |
| WaylandWindow.HandleEvent | src/platform/WebAppWaylandWindow.cpp:117-211 | with no application, everything is consumed unchanged; no event changes the attached application, the size, the cursor setting or XInput; only pointer events change the cursor's visibility; a state change records the new host state and, unless it is a minimize, changes nothing else and is passed to the delegate after exactly one stateChanged call with the new state; a press records itself and its flags, a release records itself, and a move keeps the remembered press, each changing nothing else but the cursor's visibility; the events other than pointer buttons, motion, focus-out and state changes leave the window unchanged |
| WaylandWindow.PointerEventsFollowCursor | src/platform/WebAppWaylandWindow.cpp:153-167 | mouse press, release and move are consumed, with no call, exactly when the cursor is disabled, which also hides it; the wheel makes no call and is consumed when the cursor is disabled, and passed to the delegate otherwise; press and release set the last mouse type |
| WaylandWindow.FocusLossReleasesPendingPress | src/platform/WebAppWaylandWindow.cpp:132-195 | focus-out and minimize make exactly the calls: the release with the press's flags when a press is pending, then the unfocus or state-change call; leave no press pending, and change nothing else in the window |
| WaylandWindow.OtherEventsDispatch | src/platform/WebAppWaylandWindow.cpp:121-205 | close and an imminent state change are consumed after doClose / stateAboutToChange; a swap calls the frame-swap hook exactly when launch timing is on; enter, leave, focus-in and keyboard events make their one call; key and other events make none; all of these go on to the window delegate |
| WaylandWindow.TruncateToInt | src/platform/WebAppWaylandWindow.cpp:198-202 | the float keyboard height becomes an int by truncation toward zero |
| WaylandWindow.SubUnitKeyboardHeightBecomesZero | src/platform/WebAppWaylandWindow.cpp:196-205 | a keyboard height strictly between -1 and 1 reaches the application as 0 |
| WaylandWindow.HandleEventBalance | src/platform/WebAppWaylandWindow.cpp:132-195 | one event synthesizes a release only by retiring a pending press |
| WaylandWindow.SynthesizedReleasesMatchPresses | src/platform/WebAppWaylandWindow.cpp:132-195 | over any event sequence, synthesized releases plus a still-pending press never exceed the presses seen plus one pending at the start |
| WaylandWindow.CheckKeyFilterTable | src/platform/WebAppWaylandWindow.cpp:225-239 | a key absent from the table gives 0 and leaves the modifier unchanged; a listed key gives its mapped code and modifier |
| WaylandWindow.SendKeyCode | src/platform/WebAppWaylandWindow.cpp:311-318 | XInput is activated exactly when it was not yet active; the flag stays set; the calls are exactly the optional activation and then one invoke of the key |
| WaylandWindow.SendKeyCodeActivatesOnce | src/platform/WebAppWaylandWindow.cpp:311-318 | a second key send only invokes the key |
| WindowPool.CreateWindow | src/platform/WebAppWaylandWindow.cpp:55-63 | a prepared window is a freshly constructed window, following the cursor default with the cursor hidden, except that it is sized 1x1 |
| WindowPool.Take | src/platform/WebAppWaylandWindow.cpp:25-40 | take always empties the slot; it returns the prepared window when there is one, and a fresh window otherwise |
| WindowPool.Prepare | src/platform/WebAppWaylandWindow.cpp:42-53 | prepare leaves a full slot alone and fills an empty one with a 1x1 window |
| WindowPool.PrepareIdempotent | src/platform/WebAppWaylandWindow.cpp:42-53 | preparing twice is the same as preparing once |
| WindowPool.TakeAfterPrepare | src/platform/WebAppWaylandWindow.cpp:25-63 | taking after preparing an empty pool hands out the prepared 1x1 window and empties the pool |
| WindowPool.SecondTakeIsFresh | src/platform/WebAppWaylandWindow.cpp:25-40 | a second take in a row always gets a freshly constructed window |
| Platform.UnattachedWindowSwallowsEvents | src/platform/WebAppWaylandWindow.cpp:119-120 | a window without an application consumes every event with no effect |
| Platform.FocusOutCompletesPendingClick | src/platform/WebAppWaylandWindow.cpp:182-195 | focus-out during a click gives the page exactly one release and then removes its focus |
| Platform.MinimizeReleasesThenDeactivates | src/platform/WebAppWaylandWindow.cpp:132-141 | minimizing first releases a pending press and then deactivates the stage |
| Platform.MinimizeDuringClick | src/platform/WebAppWaylandWindow.cpp:132-141 | minimizing during a click gives the page the release and then exactly the deactivation effects |
| Platform.MinimizeWithoutClick | src/platform/WebAppWaylandWindow.cpp:132-141 | minimizing with no click pending gives exactly the deactivation effects |
| Platform.StateChangeReachesApplication | src/platform/WebAppWaylandWindow.cpp:132-141 | a state change other than a minimize is passed to the delegate, records the new host state, and gives the application exactly its stateChanged transition and effects |
| Platform.FocusInWhileMinimized | src/platform/WebAppWaylandWindow.cpp:174-181 | focus-in while minimized marks the application focused but does not tell the page |
| Platform.KeyboardShowThenHideRestoresRegion | src/platform/WebAppWaylandWindow.cpp:196-205 | showing the keyboard with a height of at least one pixel and then hiding it returns the input region to where it was |
| Platform.DeliverKeyboardEvent | src/platform/WebAppWaylandWindow.cpp:196-205 | a keyboard event leaves the window as it was and gives the application exactly its keyboard change with the truncated height |
| Platform.SubUnitKeyboardShowActsAsHide | src/platform/WebAppWaylandWindow.cpp:196-205 | a keyboard shown with a height below one pixel moves the input region as a keyboard hide does |

## Findings

| source | as written | input that shows it | evidently intended | confidence | as-written member | corrected member |
|---|---|---|---|---|---|---|
| src/platform/WebAppWaylandWindow.cpp:94-96 | `arg.empty() \|\| arg != "default"` selects the platform cursor, and `arg != "blank"` selects the blank cursor | `"default"` selects the blank cursor and disables the pointer; `"blank"` restores the platform cursor; no argument reaches the cursor-file branch | the platform cursor for empty or `"default"`, the blank cursor for `"blank"`, a cursor file otherwise (the log text of each branch says so) | high, not executed | CursorSelection.AsWrittenMisclassifies | CursorSelection.CursorTypeForClassifies |

The window's `WaylandWindow.SetCursor` uses the corrected classification.
`WaylandWindow.SetCursorAsWritten` keeps the comparisons as written, for comparison.

## Left out

- Qt JSON and QVariant parsing are left out. A JSON document is an array of
  elements or "not an array". A key-mask element is its string value, with a
  non-string element given as the empty string. A region element is a record
  whose missing fields are 0. A property value is its text plus its boolean
  reading.
- Key-mask bit values come from the webOS key-mask enumeration, which is not
  part of this model. The proved properties hold for any table values, except
  that BACK and EXIT must be non-zero.
- InputRegion.SetInputRegion: the display scale is an integer. The source
  multiplies by a float scale factor and truncates. gfx::Rect's clamping of a
  negative size to 0 is not modelled.
- InputRegion.MoveInputRegion: `int` overflow of `y - height` is not modelled.
- The launch-timeout period is a parameter. Its default is 5000 ms, and an
  environment variable can override it. Real time is not modelled; elapsed
  time is supplied by the caller.
- WebApp: the crash, keep-alive, overlay, preload, closing and hidden-window
  flags of the application base class are fields of the record. Only this layer's use of
  them is modelled, not how the base class sets them.
- WebApp.InitEffects: the window type and display id are given as property
  values, because their QVariant forms are not modelled; `None` stands for the
  undefined display id. The launch-timeout override read from the environment
  and the creation of the input manager (WebAppWayland.cpp:126-132) are not
  modelled, because both are process-wide set-up outside the window.
- WaylandWindow.HandleEvent: "passed on to the window delegate" is reported as
  a verdict. What the toolkit's delegate then does is not modelled. The event
  carries the host state that the toolkit records before the state-change
  event.
- WaylandWindow.TruncateToInt: the keyboard height is a real number rather
  than a 32-bit float. Float rounding and the undefined conversion of a height
  outside the `int` range are not modelled. Truncation toward zero is.
- WindowPool: the allocation-failure branches of `take`, `prepare` and
  `createWindow` are left out, because `new` never yields null there.
- Logging, `logEventDebugging`, Qt signal and slot connections, the JavaScript
  built for the cursor-visibility and webOS-mouse events, window groups,
  `attach`/`detach`, `configureWindow`, `navigationHistoryChanged`,
  `titleChanged`, `webPageLoadFinishedSlot`/`webPageLoadFailedSlot` and
  `webViewRecreatedSlot` are left out. They are glue, and the modelled core
  does not depend on them.
- Pointer ownership, construction and destruction of the window and the
  application are left out.

=== FILE: cursor_selection.dfy ===
/** Which custom cursor a cursor argument selects: "default" (or nothing)
    restores the platform cursor, "blank" hides it, anything else names a
    cursor image file. The comparisons as written in setCursor are negated,
    which this module exhibits next to the intended classification. */
module CursorSelection {
  import opened Types

  /** The classification exactly as the comparisons are written. */
  function CursorTypeAsWritten(arg: string): CursorType
  {
    if |arg| == 0 || arg != "default" then CursorNotUse
    else if arg != "blank" then CursorBlank
    else CursorPath
  }

  /** As written, a custom cursor file is never selected, "default" blanks
      the cursor and "blank" restores it. */
  lemma AsWrittenMisclassifies(arg: string)
    ensures CursorTypeAsWritten(arg) != CursorPath
    ensures CursorTypeAsWritten("default") == CursorBlank
    ensures CursorTypeAsWritten("blank") == CursorNotUse
    ensures CursorTypeAsWritten(arg) == CursorBlank <==> arg == "default"
  {
  }

  /** The intended classification, which the window model uses. */
  function CursorTypeFor(arg: string): CursorType
  {
    if |arg| == 0 || arg == "default" then CursorNotUse
    else if arg == "blank" then CursorBlank
    else CursorPath
  }

  /** Each cursor type is selected by exactly its own arguments. */
  lemma CursorTypeForClassifies(arg: string)
    ensures CursorTypeFor(arg) == CursorNotUse <==> arg == "" || arg == "default"
    ensures CursorTypeFor(arg) == CursorBlank <==> arg == "blank"
    ensures CursorTypeFor(arg) == CursorPath <==> arg !in {"", "default", "blank"}
  {
  }
}

=== FILE: input_region.dfy ===
/** The input region: the rectangles of the host window that receive pointer
    input. An application sets it from a JSON array; it is pushed to the
    compositor and enabled once the window is first shown; while the virtual
    keyboard is up it is moved up by the keyboard height. */
module InputRegion {
  import opened Types

  /** One element of the application's region array; a missing field
      reads as 0. */
  datatype RectRecord = RectRecord(x: int, y: int, width: int, height: int)

  datatype RegionState = RegionState(rects: seq<Rect>, enabled: bool, vkbHeight: int)

  const InitialRegion: RegionState := RegionState([], false, 0)

  /** Every field of a record multiplied by the display scale. */
  function ScaleRect(r: RectRecord, scale: int): Rect
  {
    Rect(r.x * scale, r.y * scale, r.width * scale, r.height * scale)
  }

  /** Every rectangle moved up by `dy`, all else kept. */
  function Shift(rects: seq<Rect>, dy: int): (moved: seq<Rect>)
    ensures |moved| == |rects|
    ensures forall k | 0 <= k < |rects| ::
      moved[k] == Rect(rects[k].x, rects[k].y - dy, rects[k].width, rects[k].height)
  {
    seq(|rects|, k requires 0 <= k < |rects| => rects[k].(y := rects[k].y - dy))
  }

  /** Shifting by `a` then by `b` is shifting by their sum; in particular a
      shift by `-a` undoes a shift by `a`. */
  lemma ShiftCompose(rects: seq<Rect>, a: int, b: int)
    ensures Shift(Shift(rects, a), b) == Shift(rects, a + b)
  {
  }

  lemma ShiftByZero(rects: seq<Rect>)
    ensures Shift(rects, 0) == rects
  {
  }

  /** setInputRegion: the region is replaced by the document's records,
      scaled, and pushed to the window whether or not it is enabled. */
  function SetInputRegion(s: RegionState, doc: JsonDoc<RectRecord>, scale: int): (r: Step<RegionState>)
    ensures r.state.enabled == s.enabled && r.state.vkbHeight == s.vkbHeight
    ensures doc.NotArray? ==> r.state.rects == []
    ensures doc.JsonArray? ==> |r.state.rects| == |doc.items|
    ensures doc.JsonArray? ==>
      forall k | 0 <= k < |doc.items| :: r.state.rects[k] == ScaleRect(doc.items[k], scale)
    ensures r.effects == [WindowSetInputRegion(r.state.rects)]
  {
    var rects :=
      if doc.JsonArray?
      then seq(|doc.items|, k requires 0 <= k < |doc.items| => ScaleRect(doc.items[k], scale))
      else [];
    Step(s.(rects := rects), [WindowSetInputRegion(rects)])
  }

  /** applyInputRegion: enable and push a non-empty region the first time. */
  function ApplyInputRegion(s: RegionState): (r: Step<RegionState>)
    ensures r.state.rects == s.rects && r.state.vkbHeight == s.vkbHeight
    ensures r.state.enabled <==> s.enabled || s.rects != []
    ensures r.effects != [] <==> !s.enabled && s.rects != []
    ensures r.effects != [] ==> r.effects == [WindowSetInputRegion(s.rects)]
  {
    if !s.enabled && s.rects != [] then
      Step(s.(enabled := true), [WindowSetInputRegion(s.rects)])
    else
      Step(s, [])
  }

  /** Applying twice is applying once. */
  lemma ApplyInputRegionIdempotent(s: RegionState)
    ensures ApplyInputRegion(ApplyInputRegion(s).state) == Step(ApplyInputRegion(s).state, [])
  {
  }

  /** moveInputRegion: a non-zero height becomes the keyboard height; a
      zero height negates the stored one, so the next shift moves the
      region back. Every rectangle moves up by the new keyboard height. */
  function MoveInputRegion(s: RegionState, height: int): (r: Step<RegionState>)
    ensures !s.enabled ==> r == Step(s, [])
    ensures s.enabled ==> r.state.enabled
    ensures s.enabled && height != 0 ==> r.state.vkbHeight == height
    ensures s.enabled && height == 0 ==> r.state.vkbHeight == -s.vkbHeight
    ensures s.enabled ==> |r.state.rects| == |s.rects|
    ensures s.enabled ==> forall k | 0 <= k < |s.rects| ::
      && r.state.rects[k].x == s.rects[k].x
      && r.state.rects[k].y == s.rects[k].y - r.state.vkbHeight
      && r.state.rects[k].width == s.rects[k].width
      && r.state.rects[k].height == s.rects[k].height
    ensures s.enabled ==> r.effects == [WindowSetInputRegion(r.state.rects)]
  {
    if !s.enabled then Step(s, [])
    else
      var vkb := if height != 0 then height else -s.vkbHeight;
      var moved := Shift(s.rects, vkb);
      Step(RegionState(moved, true, vkb), [WindowSetInputRegion(moved)])
  }

  /** Keyboard shown with a non-zero height, then hidden (height 0): the
      region is back where it was. */
  lemma MoveThenRestore(s: RegionState, height: int)
    requires s.enabled && height != 0
    ensures MoveInputRegion(MoveInputRegion(s, height).state, 0).state
         == s.(vkbHeight := -height)
  {
    ShiftCompose(s.rects, height, -height);
    ShiftByZero(s.rects);
  }

  /** A second zero-height move shifts the region up again: only the first
      hide after a show restores it. */
  lemma RepeatedHideShiftsAgain(s: RegionState, height: int)
    requires s.enabled && height != 0
    ensures MoveInputRegion(MoveInputRegion(MoveInputRegion(s, height).state, 0).state, 0).state.rects
         == Shift(s.rects, height)
  {
    var s2 := MoveInputRegion(MoveInputRegion(s, height).state, 0).state;
    MoveThenRestore(s, height);
    assert s2.rects == s.rects;
  }

  /** A keyboard resized while up (two non-zero heights) and then hidden
      leaves the region shifted by the first height. */
  lemma ResizeThenHideKeepsFirstShift(s: RegionState, h1: int, h2: int)
    requires s.enabled && h1 != 0 && h2 != 0
    ensures MoveInputRegion(MoveInputRegion(MoveInputRegion(s, h1).state, h2).state, 0).state.rects
         == Shift(s.rects, h1)
  {
    ShiftCompose(s.rects, h1, h2);
    ShiftCompose(s.rects, h1 + h2, -h2);
  }
}

=== FILE: key_masks.dfy ===
/** Key masks: which remote-control keys the compositor delivers to the
    application. A mask is a 32-bit set of key-group bits; an application
    names the groups it wants in a JSON array, and two window properties
    toggle the BACK and EXIT bits individually. */
module KeyMasks {
  import opened Types

  // Assumed bit values for the webOS key-mask enumeration (webos::WebOSKeyMask),
  // whose declaration is not part of this model: one bit per key group in
  // declaration order, and the default mask with every bit but HOME, BACK and
  // EXIT. Only BACK and EXIT being non-zero matters to the proofs.
  const KeyMaskHome: bv32 := 0x1
  const KeyMaskBack: bv32 := 0x2
  const KeyMaskExit: bv32 := 0x4
  const KeyMaskLeft: bv32 := 0x8
  const KeyMaskRight: bv32 := 0x10
  const KeyMaskUp: bv32 := 0x20
  const KeyMaskDown: bv32 := 0x40
  const KeyMaskOk: bv32 := 0x80
  const KeyMaskNumeric: bv32 := 0x100
  const KeyMaskRemoteColorRed: bv32 := 0x200
  const KeyMaskRemoteColorGreen: bv32 := 0x400
  const KeyMaskRemoteColorYellow: bv32 := 0x800
  const KeyMaskRemoteColorBlue: bv32 := 0x1000
  const KeyMaskRemoteProgrammeGroup: bv32 := 0x2000
  const KeyMaskRemotePlaybackGroup: bv32 := 0x4000
  const KeyMaskRemoteTeletextGroup: bv32 := 0x8000
  const KeyMaskDefault: bv32 := 0xFFFF_FFF8

  /** The name table an application's key-mask list is read against. */
  const KeyMaskTable: map<string, bv32> := map[
    "KeyMaskNone" := 0,
    "KeyMaskHome" := KeyMaskHome,
    "KeyMaskBack" := KeyMaskBack,
    "KeyMaskExit" := KeyMaskExit,
    "KeyMaskLeft" := KeyMaskLeft,
    "KeyMaskRight" := KeyMaskRight,
    "KeyMaskUp" := KeyMaskUp,
    "KeyMaskDown" := KeyMaskDown,
    "KeyMaskOk" := KeyMaskOk,
    "KeyMaskNumeric" := KeyMaskNumeric,
    "KeyMaskRed" := KeyMaskRemoteColorRed,
    "KeyMaskGreen" := KeyMaskRemoteColorGreen,
    "KeyMaskYellow" := KeyMaskRemoteColorYellow,
    "KeyMaskBlue" := KeyMaskRemoteColorBlue,
    "KeyMaskProgramme" := KeyMaskRemoteProgrammeGroup,
    "KeyMaskPlayback" := KeyMaskRemotePlaybackGroup,
    "KeyMaskTeletext" := KeyMaskRemoteTeletextGroup,
    "KeyMaskDefault" := KeyMaskDefault
  ]

  /** Table lookup with a zero default for names the table lacks. */
  function MaskOf(table: map<string, bv32>, name: string): bv32
  {
    if name in table then table[name] else 0
  }

  /** `m` already holds every bit of `part`. */
  predicate Covers(m: bv32, part: bv32)
  {
    part | m == m
  }

  /** Left-to-right bitwise OR of the masks of `names`, starting from 0. */
  function FoldMasks(table: map<string, bv32>, names: seq<string>): bv32
  {
    if |names| == 0 then 0
    else FoldMasks(table, names[..|names| - 1]) | MaskOf(table, names[|names| - 1])
  }

  /** The fold holds the bits of every listed name. */
  lemma {:induction false} FoldCoversEachName(table: map<string, bv32>, names: seq<string>)
    ensures forall k | 0 <= k < |names| :: Covers(FoldMasks(table, names), MaskOf(table, names[k]))
  {
    if |names| > 0 {
      var init := names[..|names| - 1];
      FoldCoversEachName(table, init);
      forall k | 0 <= k < |names|
        ensures Covers(FoldMasks(table, names), MaskOf(table, names[k]))
      {
        if k < |names| - 1 {
          assert names[k] == init[k];
          assert Covers(FoldMasks(table, init), MaskOf(table, init[k]));
        }
      }
    }
  }

  /** ... and no other bits: any mask holding every listed name's bits
      holds the fold. */
  lemma {:induction false} FoldIsLeast(table: map<string, bv32>, names: seq<string>, m: bv32)
    requires forall k | 0 <= k < |names| :: Covers(m, MaskOf(table, names[k]))
    ensures Covers(m, FoldMasks(table, names))
  {
    if |names| > 0 {
      var init := names[..|names| - 1];
      forall k | 0 <= k < |init|
        ensures Covers(m, MaskOf(table, init[k]))
      {
        assert init[k] == names[k];
      }
      FoldIsLeast(table, init, m);
      assert Covers(m, MaskOf(table, names[|names| - 1]));
    }
  }

  /** The folded mask depends only on the set of names listed: neither
      their order nor repetitions change it. */
  lemma FoldDependsOnlyOnNameSet(table: map<string, bv32>, a: seq<string>, b: seq<string>)
    requires forall n :: n in a <==> n in b
    ensures FoldMasks(table, a) == FoldMasks(table, b)
  {
    FoldCoversEachName(table, a);
    FoldCoversEachName(table, b);
    forall k | 0 <= k < |b|
      ensures Covers(FoldMasks(table, a), MaskOf(table, b[k]))
    {
      assert b[k] in b;
      var j :| 0 <= j < |a| && a[j] == b[k];
    }
    forall k | 0 <= k < |a|
      ensures Covers(FoldMasks(table, b), MaskOf(table, a[k]))
    {
      assert a[k] in a;
      var j :| 0 <= j < |b| && b[j] == a[k];
    }
    FoldIsLeast(table, b, FoldMasks(table, a));
    FoldIsLeast(table, a, FoldMasks(table, b));
  }

  /** A name the table lacks contributes nothing. */
  lemma FoldSkipsUnknownName(table: map<string, bv32>, names: seq<string>, n: string)
    requires n !in table
    ensures FoldMasks(table, names + [n]) == FoldMasks(table, names)
  {
    assert (names + [n])[..|names|] == names;
  }

  /** One more name extends the fold of a prefix by that name's mask. */
  lemma FoldPrefixStep(table: map<string, bv32>, names: seq<string>, i: nat)
    requires i < |names|
    ensures FoldMasks(table, names[..i + 1]) == FoldMasks(table, names[..i]) | MaskOf(table, names[i])
  {
    assert names[..i + 1][..i] == names[..i];
  }

  /** The mask a key-mask document selects: the OR of its names' masks for
      an array, 0 for any other document. */
  function DocumentKeyMask(doc: JsonDoc<string>): (mask: bv32)
    ensures doc.NotArray? ==> mask == 0
    ensures doc.JsonArray? ==>
      forall k | 0 <= k < |doc.items| :: Covers(mask, MaskOf(KeyMaskTable, doc.items[k]))
    ensures doc.JsonArray? ==>
      forall m: bv32 | (forall k | 0 <= k < |doc.items| :: Covers(m, MaskOf(KeyMaskTable, doc.items[k]))) ::
        Covers(m, mask)
  {
    if doc.NotArray? then 0
    else
      FoldCoversEachName(KeyMaskTable, doc.items);
      forall m: bv32 | (forall k | 0 <= k < |doc.items| :: Covers(m, MaskOf(KeyMaskTable, doc.items[k])))
        ensures Covers(m, FoldMasks(KeyMaskTable, doc.items))
      {
        FoldIsLeast(KeyMaskTable, doc.items, m);
      }
      FoldMasks(KeyMaskTable, doc.items)
  }

  /** The OR-accumulating loop over a list of names. */
  method AccumulateMasks(table: map<string, bv32>, items: seq<string>) returns (mask: bv32)
    ensures mask == FoldMasks(table, items)
  {
    mask := 0;
    var i := 0;
    while i < |items|
      invariant 0 <= i <= |items|
      invariant mask == FoldMasks(table, items[..i])
    {
      var part := MaskOf(table, items[i]);
      assert mask | part == FoldMasks(table, items[..i + 1]) by {
        FoldPrefixStep(table, items, i);
      }
      mask := mask | part;
      i := i + 1;
    }
    assert items[..|items|] == items;
  }

  /** The accumulation loop of setKeyMask(json), computing the same mask as
      the recursive definition. */
  method ComputeKeyMask(doc: JsonDoc<string>) returns (mask: bv32)
    ensures doc.NotArray? ==> mask == 0
    ensures doc.JsonArray? ==> mask == DocumentKeyMask(doc)
  {
    mask := 0;
    if doc.JsonArray? {
      mask := AccumulateMasks(KeyMaskTable, doc.items);
    }
  }

  /** setKeyMask(json): one window call with the document's mask. */
  function KeyMaskDocumentEffects(doc: JsonDoc<string>): (effs: seq<Effect>)
    ensures |effs| == 1 && effs[0].WindowSetKeyMask?
    ensures doc.NotArray? ==> effs[0].mask == 0
    ensures doc.JsonArray? ==> effs[0].mask == FoldMasks(KeyMaskTable, doc.items)
  {
    [WindowSetKeyMask(DocumentKeyMask(doc))]
  }

  const BackPolicyProperty: string := "_WEBOS_ACCESS_POLICY_KEYS_BACK"
  const ExitPolicyProperty: string := "_WEBOS_ACCESS_POLICY_KEYS_EXIT"

  /** The key-mask bit a window property controls, 0 for none. */
  function PolicyBit(name: string): bv32
  {
    if name == BackPolicyProperty then KeyMaskBack
    else if name == ExitPolicyProperty then KeyMaskExit
    else 0
  }

  /** setWindowProperty: the two access-policy properties also toggle their
      key-mask bit to the value's boolean reading; the property itself is
      always forwarded, last. */
  function WindowPropertyEffects(name: string, value: PropertyValue): (effs: seq<Effect>)
    ensures 1 <= |effs| <= 2
    ensures effs[|effs| - 1] == WindowSetProperty(name, value.text)
    ensures name == BackPolicyProperty ==> effs[0] == WindowSetKeyMaskBit(KeyMaskBack, value.asBool)
    ensures name == ExitPolicyProperty ==> effs[0] == WindowSetKeyMaskBit(KeyMaskExit, value.asBool)
    ensures name != BackPolicyProperty && name != ExitPolicyProperty ==>
      effs == [WindowSetProperty(name, value.text)]
  {
    var bit := PolicyBit(name);
    (if bit != 0 then [WindowSetKeyMaskBit(bit, value.asBool)] else [])
      + [WindowSetProperty(name, value.text)]
  }

  /** Only the two access-policy properties touch the key mask at all. */
  lemma PropertyTouchesKeyMaskOnlyForPolicyKeys(name: string, value: PropertyValue)
    ensures (exists e | e in WindowPropertyEffects(name, value) :: e.WindowSetKeyMaskBit?)
        <==> name == BackPolicyProperty || name == ExitPolicyProperty
  {
    var effs := WindowPropertyEffects(name, value);
    if name == BackPolicyProperty || name == ExitPolicyProperty {
      assert effs[0] in effs;
    }
  }
}

=== FILE: launch_timing.dfy ===
/** Launch-time measurement: an elapsed-time timer that runs from launch,
    and a timeout that is re-armed on every frame swap; when no frame has
    been swapped for the timeout period the launch counts as finished and
    both stop. Real time is left out: only running/armed flags, the armed
    period and the last recorded elapsed value are kept. */
module LaunchTiming {

  /** Default timeout period in milliseconds (kLaunchFinishAssureTimeoutMs). */
  const DefaultLaunchTimeoutMs: int := 5000

  datatype LaunchTimer = LaunchTimer(
    running: bool,          // the elapsed-time timer
    timeoutArmed: bool,     // the launch-finish timeout
    armedForMs: int,        // period the timeout was last armed with
    lastSwappedMs: int)     // elapsed time at the last frame swap

  const InitialTimer: LaunchTimer := LaunchTimer(false, false, 0, 0)

  /** The timeout is never armed without the elapsed timer running. */
  predicate Valid(t: LaunchTimer)
  {
    t.timeoutArmed ==> t.running
  }

  /** startLaunchTimer: starts measuring only for a visible window. */
  function Start(t: LaunchTimer, hidden: bool): (r: LaunchTimer)
    ensures hidden ==> r == t
    ensures !hidden ==> r.running
    ensures r.timeoutArmed == t.timeoutArmed && r.lastSwappedMs == t.lastSwappedMs
    ensures r.armedForMs == t.armedForMs
  {
    if hidden then t else t.(running := true)
  }

  /** onDelegateWindowFrameSwapped: while measuring, record the elapsed
      time and re-arm the timeout; otherwise nothing. */
  function FrameSwapped(t: LaunchTimer, elapsedMs: int, timeoutMs: int): (r: LaunchTimer)
    ensures !t.running ==> r == t
    ensures t.running ==> r.running && r.timeoutArmed && r.armedForMs == timeoutMs
    ensures t.running ==> r.lastSwappedMs == elapsedMs
  {
    if t.running then t.(lastSwappedMs := elapsedMs, timeoutArmed := true, armedForMs := timeoutMs)
    else t
  }

  /** onLaunchTimeout: while measuring, stop both timers. */
  function Timeout(t: LaunchTimer): (r: LaunchTimer)
    ensures t.running ==> !r.running && !r.timeoutArmed && r.lastSwappedMs == t.lastSwappedMs
    ensures !t.running ==> r == t
    ensures r.armedForMs == t.armedForMs && r.lastSwappedMs == t.lastSwappedMs
  {
    if t.running then t.(running := false, timeoutArmed := false) else t
  }

  /** Every operation keeps the timeout subordinate to the elapsed timer. */
  lemma OperationsPreserveValid(t: LaunchTimer, hidden: bool, elapsedMs: int, timeoutMs: int)
    requires Valid(t)
    ensures Valid(Start(t, hidden))
    ensures Valid(FrameSwapped(t, elapsedMs, timeoutMs))
    ensures Valid(Timeout(t))
  {
  }

  /** After the timeout, later frame swaps record nothing. */
  lemma SwapAfterTimeoutIsIgnored(t: LaunchTimer, elapsedMs: int, timeoutMs: int)
    ensures FrameSwapped(Timeout(t), elapsedMs, timeoutMs) == Timeout(t)
  {
  }

  /** A hidden launch never measures anything: from the initial timer,
      swaps and timeouts leave it as it was. */
  lemma HiddenLaunchRecordsNothing(elapsedMs: int, timeoutMs: int)
    ensures FrameSwapped(Start(InitialTimer, true), elapsedMs, timeoutMs) == InitialTimer
    ensures Timeout(Start(InitialTimer, true)) == InitialTimer
  {
  }
}

=== FILE: location_hints.dfy ===
/** Parsing of the location hint an application asks for when its window is
    created, and the window call that applies it. */
module LocationHints {
  import opened Types

  /** The fixed name table; every other string means "no hint". */
  const HintNames: map<string, LocationHint> := map[
    "north" := North, "west" := West, "south" := South, "east" := East,
    "center" := Center,
    "northwest" := NorthWest, "northeast" := NorthEast,
    "southwest" := SouthWest, "southeast" := SouthEast
  ]

  function ParseLocationHint(value: string): LocationHint
  {
    if value in HintNames then HintNames[value] else Unknown
  }

  /** The spelling of each named hint, written independently of the table. */
  function HintName(hint: LocationHint): string
    requires hint != Unknown
  {
    match hint
    case North => "north"
    case West => "west"
    case South => "south"
    case East => "east"
    case Center => "center"
    case NorthWest => "northwest"
    case NorthEast => "northeast"
    case SouthWest => "southwest"
    case SouthEast => "southeast"
  }

  /** A string parses to a named hint exactly when it is that hint's name. */
  lemma ParseInvertsHintName(hint: LocationHint, value: string)
    requires hint != Unknown
    ensures ParseLocationHint(value) == hint <==> value == HintName(hint)
  {
  }

  /** Exactly the nine names are recognised; every other string is Unknown. */
  lemma ParseUnknownOutsideNames(value: string)
    ensures ParseLocationHint(value) == Unknown <==>
      value !in {"north", "west", "south", "east", "center",
                 "northwest", "northeast", "southwest", "southeast"}
  {
  }

  /** The window call window creation makes for a requested hint: the
      parsed hint is applied only when it is not Unknown. */
  function LocationHintEffects(value: string): (effs: seq<Effect>)
    ensures effs == [] <==> value !in HintNames
    ensures forall e | e in effs :: e == WindowSetLocationHint(HintNames[value])
    ensures |effs| <= 1
  {
    var hint := ParseLocationHint(value);
    if hint != Unknown then [WindowSetLocationHint(hint)] else []
  }
}

=== FILE: platform.dfy ===
/** A window and its web application together: an event is first filtered
    by the window, and the calls the window makes on the application are
    then carried out in order, collecting their external effects. */
module Platform {
  import opened Types
  import opened WaylandWindow
  import WebApp
  import InputRegion

  /** Answers from the page and the clock that the application reads
      while handling a call. */
  datatype Env = Env(loadErrorPageFinished: bool, elapsedMs: int, launchTimeoutMs: int)

  datatype System = System(window: Window, app: WebApp.App)

  datatype Delivery = Delivery(system: System, verdict: Verdict, effects: seq<Effect>)

  /** The application method each window call invokes. */
  function ApplyCall(app: WebApp.App, host: HostState, call: AppCall, env: Env): Step<WebApp.App>
  {
    match call
    case CallDoClose => WebApp.DoClose(app, env.loadErrorPageFinished)
    case CallStateChanged(s) => WebApp.StateChanged(app, s)
    case CallStateAboutToChange(s) => WebApp.StateAboutToChange(app, s)
    case CallFrameSwapped =>
      Step(WebApp.LaunchFrameSwapped(app, env.elapsedMs, env.launchTimeoutMs), [])
    case CallFocus => WebApp.Focus(app, host)
    case CallUnfocus => WebApp.Unfocus(app)
    case CallForwardMouseRelease(flags) => Step(app, [PageForwardMouse(MouseRelease, flags)])
    case CallSendWebOSMouse(name) => Step(app, WebApp.SendWebOSMouseEvent(name))
    case CallKeyboardVisibility(visible, height) =>
      WebApp.KeyboardVisibilityChanged(app, visible, height)
  }

  function ApplyCalls(app: WebApp.App, host: HostState, calls: seq<AppCall>, env: Env): Step<WebApp.App>
    decreases |calls|
  {
    if |calls| == 0 then Step(app, [])
    else
      var first := ApplyCall(app, host, calls[0], env);
      var rest := ApplyCalls(first.state, host, calls[1..], env);
      Step(rest.state, first.effects + rest.effects)
  }

  lemma ApplyOneCall(app: WebApp.App, host: HostState, c: AppCall, env: Env)
    ensures ApplyCalls(app, host, [c], env) == ApplyCall(app, host, c, env)
  {
    var first := ApplyCall(app, host, c, env);
    assert first.effects + [] == first.effects;
  }

  lemma ApplyTwoCalls(app: WebApp.App, host: HostState, c1: AppCall, c2: AppCall, env: Env)
    ensures var s1 := ApplyCall(app, host, c1, env);
      var s2 := ApplyCall(s1.state, host, c2, env);
      ApplyCalls(app, host, [c1, c2], env) == Step(s2.state, s1.effects + s2.effects)
  {
    var s1 := ApplyCall(app, host, c1, env);
    assert [c1, c2][1..] == [c2];
    ApplyOneCall(s1.state, host, c2, env);
  }

  /** Deliver one event to the window, then to the application. */
  function Deliver(sys: System, ev: Event, env: Env): (r: Delivery)
    ensures r.verdict == HandleEvent(sys.window, ev).verdict
    ensures r.system.window == HandleEvent(sys.window, ev).window
  {
    var d := HandleEvent(sys.window, ev);
    var s := ApplyCalls(sys.app, d.window.hostState, d.calls, env);
    Delivery(System(d.window, s.state), d.verdict, s.effects)
  }

  /** A window with no application swallows every event and changes nothing. */
  lemma UnattachedWindowSwallowsEvents(sys: System, ev: Event, env: Env)
    requires sys.window.webApp.None?
    ensures Deliver(sys, ev, env) == Delivery(sys, Consumed, [])
  {
  }

  /** Losing focus in the middle of a click: the page gets exactly one
      release with the press's flags, then loses focus. */
  lemma FocusOutCompletesPendingClick(sys: System, env: Env)
    requires sys.window.webApp.Some? && sys.window.lastMouse == MousePress
    ensures var r := Deliver(sys, FocusOut, env);
      && r.effects == [PageForwardMouse(MouseRelease, sys.window.lastMouseFlags), PageSetFocus(false)]
      && !r.system.app.focused
      && r.system.window.lastMouse == MouseRelease
  {
    ApplyTwoCalls(sys.app, sys.window.hostState,
                  CallForwardMouseRelease(sys.window.lastMouseFlags), CallUnfocus, env);
  }

  /** Minimizing the window: a pending press is released first, then the
      stage is deactivated; with no press pending, only the deactivation. */
  lemma MinimizeReleasesThenDeactivates(sys: System, env: Env)
    requires sys.window.webApp.Some? && !sys.app.mode.closing
    ensures var r := Deliver(sys, WindowStateChange(Minimized), env);
      && r.verdict == ToDelegate
      && r.effects ==
           (if sys.window.lastMouse == MousePress
            then [PageForwardMouse(MouseRelease, sys.window.lastMouseFlags)] else [])
           + WebApp.StageDeactivated(sys.app).effects
      && !r.system.app.focused && !r.system.app.didActivateStage
      && r.system.window.lastMouse != MousePress
  {
    if sys.window.lastMouse == MousePress {
      MinimizeDuringClick(sys, env);
    } else {
      MinimizeWithoutClick(sys, env);
      var deact := WebApp.StageDeactivated(sys.app).effects;
      assert [] + deact == deact;
    }
  }

  lemma MinimizeDuringClick(sys: System, env: Env)
    requires sys.window.webApp.Some? && !sys.app.mode.closing
    requires sys.window.lastMouse == MousePress
    ensures var r := Deliver(sys, WindowStateChange(Minimized), env);
      && r.verdict == ToDelegate
      && r.effects == [PageForwardMouse(MouseRelease, sys.window.lastMouseFlags)]
           + WebApp.StageDeactivated(sys.app).effects
      && !r.system.app.focused && !r.system.app.didActivateStage
      && r.system.window.lastMouse != MousePress
  {
    var flags := sys.window.lastMouseFlags;
    var d := HandleEvent(sys.window, WindowStateChange(Minimized));
    assert d.window.hostState == Minimized;
    assert d.calls == [CallForwardMouseRelease(flags), CallStateChanged(Minimized)];
    ApplyTwoCalls(sys.app, Minimized, CallForwardMouseRelease(flags), CallStateChanged(Minimized), env);
    assert ApplyCall(sys.app, Minimized, CallForwardMouseRelease(flags), env)
        == Step(sys.app, [PageForwardMouse(MouseRelease, flags)]);
    assert ApplyCall(sys.app, Minimized, CallStateChanged(Minimized), env)
        == WebApp.StageDeactivated(sys.app);
  }

  lemma MinimizeWithoutClick(sys: System, env: Env)
    requires sys.window.webApp.Some? && !sys.app.mode.closing
    requires sys.window.lastMouse != MousePress
    ensures var r := Deliver(sys, WindowStateChange(Minimized), env);
      && r.verdict == ToDelegate
      && r.effects == WebApp.StageDeactivated(sys.app).effects
      && !r.system.app.focused && !r.system.app.didActivateStage
      && r.system.window.lastMouse != MousePress
  {
    var d := HandleEvent(sys.window, WindowStateChange(Minimized));
    assert d.window.hostState == Minimized;
    assert d.calls == [CallStateChanged(Minimized)];
    ApplyOneCall(sys.app, Minimized, CallStateChanged(Minimized), env);
  }

  /** Any state change other than a minimize goes to the application's
      stateChanged unchanged and then on to the window delegate; for a shown
      state that applies the input region and activates the stage. */
  lemma StateChangeReachesApplication(sys: System, s: HostState, env: Env)
    requires sys.window.webApp.Some? && s != Minimized
    ensures var r := Deliver(sys, WindowStateChange(s), env);
      && r.verdict == ToDelegate
      && r.system == System(sys.window.(hostState := s), WebApp.StateChanged(sys.app, s).state)
      && r.effects == WebApp.StateChanged(sys.app, s).effects
  {
    var d := HandleEvent(sys.window, WindowStateChange(s));
    assert d.calls == [CallStateChanged(s)];
    ApplyOneCall(sys.app, s, CallStateChanged(s), env);
  }

  /** Focus gained while minimized: the application counts as focused but
      the page is not told. */
  lemma FocusInWhileMinimized(sys: System, env: Env)
    requires sys.window.webApp.Some? && sys.window.hostState == Minimized
    ensures var r := Deliver(sys, FocusIn, env);
      r.system.app.focused && r.effects == []
  {
    ApplyOneCall(sys.app, Minimized, CallFocus, env);
  }

  /** A keyboard event reaches the application as a truncated height and
      leaves the window as it was. */
  lemma DeliverKeyboardEvent(sys: System, visible: bool, height: real, env: Env)
    requires sys.window.webApp.Some?
    ensures Deliver(sys, InputPanelVisible(visible, height), env).system
         == System(sys.window, WebApp.KeyboardVisibilityChanged(sys.app, visible, TruncateToInt(height)).state)
  {
    var call := CallKeyboardVisibility(visible, TruncateToInt(height));
    var d := HandleEvent(sys.window, InputPanelVisible(visible, height));
    assert d == Dispatch(sys.window, ToDelegate, [call]);
    ApplyOneCall(sys.app, sys.window.hostState, call, env);
    var s := ApplyCalls(sys.app, d.window.hostState, d.calls, env);
    assert s.state == WebApp.KeyboardVisibilityChanged(sys.app, visible, TruncateToInt(height)).state;
  }

  /** The virtual keyboard shown with a height of at least one pixel and
      then hidden: the input region ends where it started. */
  lemma KeyboardShowThenHideRestoresRegion(sys: System, height: real, env: Env)
    requires sys.window.webApp.Some? && sys.app.region.enabled && (height >= 1.0 || height <= -1.0)
    ensures var r1 := Deliver(sys, InputPanelVisible(true, height), env);
      var r2 := Deliver(r1.system, InputPanelVisible(false, 0.0), env);
      r2.system.app.region.rects == sys.app.region.rects
  {
    var h := TruncateToInt(height);
    DeliverKeyboardEvent(sys, true, height, env);
    var r1 := Deliver(sys, InputPanelVisible(true, height), env);
    DeliverKeyboardEvent(r1.system, false, 0.0, env);
    assert TruncateToInt(0.0) == 0;
    InputRegion.MoveThenRestore(sys.app.region, h);
  }

  /** A keyboard shown with a height below one pixel moves the input region
      as if the keyboard had been hidden. */
  lemma SubUnitKeyboardShowActsAsHide(sys: System, height: real, env: Env)
    requires sys.window.webApp.Some? && -1.0 < height < 1.0
    ensures Deliver(sys, InputPanelVisible(true, height), env).system.app.region
         == InputRegion.MoveInputRegion(sys.app.region, 0).state
  {
    DeliverKeyboardEvent(sys, true, height, env);
  }
}

=== FILE: types.dfy ===
/** Shared vocabulary of the web-app Wayland platform layer: host-window
    states, rectangles, the JSON shapes the layer reads, and the effect tokens
    that stand for every call the layer makes into the web page, the host
    window toolkit or the application base class. */
module Types {

  datatype Option<+T> = None | Some(value: T)

  /** The compositor's state of the host window (webos::NativeWindowState).
      `Undefined` stands for every value outside the four named states. */
  datatype HostState = Default | Maximized | Fullscreen | Minimized | Undefined

  /** Placement request for a newly created host window. */
  datatype LocationHint =
    | Unknown | North | West | South | East | Center
    | NorthWest | NorthEast | SouthWest | SouthEast

  /** An integer rectangle (gfx::Rect). */
  datatype Rect = Rect(x: int, y: int, width: int, height: int)

  /** A parsed JSON document as far as the layer inspects it: a top-level
      array of elements, or any other document. */
  datatype JsonDoc<T> = JsonArray(items: seq<T>) | NotArray

  /** A window property value: its text and its boolean reading. */
  datatype PropertyValue = PropertyValue(text: string, asBool: bool)

  datatype Visibility = Visible | Hidden | Launching

  datatype CursorType = CursorNotUse | CursorBlank | CursorPath

  /** Type of the remembered last mouse button event. */
  datatype MouseKind = NoMouse | MousePress | MouseRelease

  /** One call into code outside the layer, recorded instead of performed. */
  datatype Effect =
    // the web page (Blink)
    | PageReloadDefault
    | PageResumeAll
    | PageSuspendAll
    | PageSuspendMedia
    | PageSetVisibility(visibility: Visibility)
    | PageSetFocus(focused: bool)
    | PageForwardMouse(kind: MouseKind, flags: int)
    | PageCloseVkb
    | PageDispatchWebOSMouse(name: string)
    // the host window (Wayland toolkit)
    | WindowInit(width: int, height: int)
    | WindowSetLocationHint(hint: LocationHint)
    | WindowAttachApp                       // the window learns its application
    | WindowShow
    | WindowHide
    | WindowRequestHostState(state: HostState)
    | WindowSetInputRegion(rects: seq<Rect>)
    | WindowSetKeyMaskBit(bit: bv32, enabled: bool)
    | WindowSetKeyMask(mask: bv32)
    | WindowSetProperty(name: string, value: string)
    | WindowSetCustomCursor(cursor: CursorType, arg: string, hotspotX: int, hotspotY: int)
    | XInputActivate
    | XInputInvokeAction(keyCode: int)
    // the application base class
    | AppSetUiSize(width: int, height: int)
    | AppSetActiveInstance
    | AppShowWindow
    | AppKeyboardVisibility(visible: bool, height: int)
    | AppForceClose
    | AppClose

  /** The outcome of a transition: the new state and the external calls it
      made, in order. */
  datatype Step<S> = Step(state: S, effects: seq<Effect>)
}

=== FILE: wayland_window.dfy ===
/** The application's host window: it filters the toolkit's events before
    they reach the web application, hiding the pointer while the cursor is
    disabled, remembers the last mouse press so that a release can be
    synthesized when focus is lost or the window is minimized, and turns the
    remaining events into calls on the application. */
module WaylandWindow {
  import opened Types
  import CursorSelection

  /** What the window knows of the web application it serves. */
  datatype AppLink = AppLink(
    checkLaunchTime: bool,
    keyFilter: map<int, (int, int)>)   // key code -> (mapped code, modifier)

  datatype Size = Unsized | Sized(width: int, height: int)

  datatype Window = Window(
    size: Size,
    webApp: Option<AppLink>,
    hostState: HostState,
    cursorEnabled: bool,
    cursorVisible: bool,
    xinputActivated: bool,
    lastMouse: MouseKind,
    lastMouseFlags: int)

  /** A freshly constructed window; whether the cursor starts enabled is a
      platform setting. The toolkit's initial host state is taken to be the
      default state. */
  function NewWindow(cursorByDefault: bool): (w: Window)
    ensures w.webApp.None? && w.lastMouse == NoMouse && !w.xinputActivated && !w.cursorVisible
    ensures w.cursorEnabled == cursorByDefault
    ensures w.size == Unsized && w.hostState == Default
  {
    Window(Unsized, None, Default, cursorByDefault, false, false, NoMouse, 0)
  }

  datatype Event =
    | Close
    | WindowStateChange(newState: HostState)
    | WindowStateAboutToChange(willBe: HostState)
    | Swap
    | KeyPress
    | KeyRelease
    | MouseButtonPress(flags: int)
    | MouseButtonRelease
    | MouseMove
    | Wheel
    | Enter
    | Leave
    | FocusIn
    | FocusOut
    | InputPanelVisible(visible: bool, height: real)   // the toolkit reports a float height
    | OtherEvent

  /** How an event was disposed of: consumed (true), left unhandled (false),
      or passed on to the toolkit's own window delegate. */
  datatype Verdict = Consumed | NotConsumed | ToDelegate

  /** A call the window makes on its web application. */
  datatype AppCall =
    | CallDoClose
    | CallStateChanged(state: HostState)
    | CallStateAboutToChange(willBe: HostState)
    | CallFrameSwapped
    | CallFocus
    | CallUnfocus
    | CallForwardMouseRelease(flags: int)
    | CallSendWebOSMouse(name: string)
    | CallKeyboardVisibility(visible: bool, height: int)

  datatype Dispatch = Dispatch(window: Window, verdict: Verdict, calls: seq<AppCall>)

  /** C++'s float-to-int conversion: truncation toward zero. */
  function TruncateToInt(x: real): (n: int)
    ensures x >= 0.0 ==> 0 <= n && n as real <= x < n as real + 1.0
    ensures x < 0.0 ==> n <= 0 && n as real - 1.0 < x <= n as real
  {
    if x >= 0.0 then x.Floor else -((-x).Floor)
  }

  predicate IsPointerButtonOrMove(ev: Event)
  {
    ev.MouseButtonPress? || ev.MouseButtonRelease? || ev.MouseMove?
  }

  /** onCursorVisibileChangeEvent: with the cursor disabled the event is
      consumed and the cursor hidden; otherwise it is left unhandled. */
  function CursorFilter(w: Window): (d: Dispatch)
    ensures d.calls == []
    ensures !w.cursorEnabled ==> d.verdict == Consumed && d.window == w.(cursorVisible := false)
    ensures w.cursorEnabled ==> d.verdict == NotConsumed && d.window == w
  {
    if !w.cursorEnabled then Dispatch(w.(cursorVisible := false), Consumed, [])
    else Dispatch(w, NotConsumed, [])
  }

  /** A pending press is turned into one forwarded release. */
  function ReleasePending(w: Window): (r: (Window, seq<AppCall>))
    ensures r.0.lastMouse != MousePress
    ensures w.lastMouse == MousePress ==>
      r == (w.(lastMouse := MouseRelease), [CallForwardMouseRelease(w.lastMouseFlags)])
    ensures w.lastMouse != MousePress ==> r == (w, [])
  {
    if w.lastMouse == MousePress then
      (w.(lastMouse := MouseRelease), [CallForwardMouseRelease(w.lastMouseFlags)])
    else (w, [])
  }

  /** Number of synthesized releases among the calls. */
  function CountReleases(calls: seq<AppCall>): nat
  {
    if |calls| == 0 then 0
    else (if calls[0].CallForwardMouseRelease? then 1 else 0) + CountReleases(calls[1..])
  }

  /** The window's event handler. */
  function HandleEvent(w: Window, ev: Event): (d: Dispatch)
    ensures w.webApp.None? ==> d == Dispatch(w, Consumed, [])
    ensures d.window.webApp == w.webApp && d.window.size == w.size
    ensures d.window.cursorEnabled == w.cursorEnabled && d.window.xinputActivated == w.xinputActivated
    ensures !IsPointerButtonOrMove(ev) ==> d.window.cursorVisible == w.cursorVisible
    ensures w.webApp.Some? && ev.WindowStateChange? ==> d.window.hostState == ev.newState
    ensures w.webApp.Some? && ev.WindowStateChange? && ev.newState != Minimized ==>
      && d.window == w.(hostState := ev.newState)
      && d.verdict == ToDelegate
      && d.calls == [CallStateChanged(ev.newState)]
    ensures w.webApp.Some? && ev.MouseButtonPress? ==>
      d.window == w.(lastMouse := MousePress, lastMouseFlags := ev.flags, cursorVisible := d.window.cursorVisible)
    ensures w.webApp.Some? && ev.MouseButtonRelease? ==>
      d.window == w.(lastMouse := MouseRelease, cursorVisible := d.window.cursorVisible)
    ensures w.webApp.Some? && ev.MouseMove? ==>
      d.window == w.(cursorVisible := d.window.cursorVisible)
    ensures (|| ev.Close? || ev.WindowStateAboutToChange? || ev.Swap? || ev.KeyPress? || ev.KeyRelease?
             || ev.Wheel? || ev.Enter? || ev.Leave? || ev.FocusIn? || ev.InputPanelVisible? || ev.OtherEvent?)
      ==> d.window == w
    ensures w.webApp.Some? && ev.Wheel? ==>
      d.calls == [] && d.verdict == (if w.cursorEnabled then ToDelegate else Consumed)
  {
    if w.webApp.None? then Dispatch(w, Consumed, [])
    else
      match ev
      case Close => Dispatch(w, Consumed, [CallDoClose])
      case WindowStateChange(s) =>
        var w1 := w.(hostState := s);
        var rel := if s == Minimized then ReleasePending(w1) else (w1, []);
        Dispatch(rel.0, ToDelegate, rel.1 + [CallStateChanged(s)])
      case WindowStateAboutToChange(s) => Dispatch(w, Consumed, [CallStateAboutToChange(s)])
      case Swap =>
        Dispatch(w, ToDelegate, if w.webApp.value.checkLaunchTime then [CallFrameSwapped] else [])
      case KeyPress => Dispatch(w, ToDelegate, [])
      case KeyRelease => Dispatch(w, ToDelegate, [])
      case MouseButtonPress(flags) =>
        CursorFilter(w.(lastMouse := MousePress, lastMouseFlags := flags))
      case MouseButtonRelease => CursorFilter(w.(lastMouse := MouseRelease))
      case MouseMove => CursorFilter(w)
      case Wheel => Dispatch(w, if !w.cursorEnabled then Consumed else ToDelegate, [])
      case Enter => Dispatch(w, ToDelegate, [CallSendWebOSMouse("Enter")])
      case Leave => Dispatch(w, ToDelegate, [CallSendWebOSMouse("Leave")])
      case FocusIn => Dispatch(w, ToDelegate, [CallFocus])
      case FocusOut =>
        var rel := ReleasePending(w);
        Dispatch(rel.0, ToDelegate, rel.1 + [CallUnfocus])
      case InputPanelVisible(visible, height) =>
        Dispatch(w, ToDelegate, [CallKeyboardVisibility(visible, TruncateToInt(height))])
      case OtherEvent => Dispatch(w, ToDelegate, [])
  }

  /** Pointer buttons and motion are swallowed, and the pointer hidden,
      exactly while the cursor is disabled; the wheel is swallowed under the
      same condition; press and release record the last mouse type. */
  lemma PointerEventsFollowCursor(w: Window, ev: Event)
    requires w.webApp.Some?
    ensures var d := HandleEvent(w, ev);
      && (IsPointerButtonOrMove(ev) ==>
            && d.calls == []
            && (d.verdict == Consumed <==> !w.cursorEnabled)
            && (w.cursorEnabled ==> d.verdict == NotConsumed && d.window.cursorVisible == w.cursorVisible)
            && (!w.cursorEnabled ==> !d.window.cursorVisible))
      && (ev.Wheel? ==> (d.verdict == Consumed <==> !w.cursorEnabled))
      && (ev.Wheel? ==> d.calls == [] && (w.cursorEnabled ==> d.verdict == ToDelegate))
      && (ev.MouseButtonPress? ==> d.window.lastMouse == MousePress)
      && (ev.MouseButtonRelease? ==> d.window.lastMouse == MouseRelease)
  {
  }

  /** Losing focus or being minimized completes a pending click: exactly one
      release is synthesized when a press is pending, none otherwise, and no
      press remains pending. */
  lemma FocusLossReleasesPendingPress(w: Window, ev: Event)
    requires w.webApp.Some? && (ev.FocusOut? || ev == WindowStateChange(Minimized))
    ensures var d := HandleEvent(w, ev);
      && d.window.lastMouse != MousePress
      && CountReleases(d.calls) == Pending(w)
      && d.verdict == ToDelegate
      && d.window == (if ev.FocusOut? then w else w.(hostState := Minimized))
                       .(lastMouse := if w.lastMouse == MousePress then MouseRelease else w.lastMouse)
      && d.calls[|d.calls| - 1] == (if ev.FocusOut? then CallUnfocus else CallStateChanged(Minimized))
      && d.calls == (if w.lastMouse == MousePress then [CallForwardMouseRelease(w.lastMouseFlags)] else [])
                    + [if ev.FocusOut? then CallUnfocus else CallStateChanged(Minimized)]
  {
    var w1 := if ev.FocusOut? then w else w.(hostState := Minimized);
    var last := if ev.FocusOut? then CallUnfocus else CallStateChanged(Minimized);
    CountReleasesAppend(ReleasePending(w1).1, [last]);
  }

  /** The remaining events: close and an imminent state change are
      consumed; the others are passed on to the window delegate after the
      application has been told. */
  lemma OtherEventsDispatch(w: Window, ev: Event)
    requires w.webApp.Some?
    ensures var d := HandleEvent(w, ev);
      && (ev.Close? ==> d.verdict == Consumed && d.calls == [CallDoClose])
      && (ev.WindowStateAboutToChange? ==>
            d.verdict == Consumed && d.calls == [CallStateAboutToChange(ev.willBe)])
      && (ev.Swap? ==>
            && d.verdict == ToDelegate
            && (d.calls == [CallFrameSwapped] <==> w.webApp.value.checkLaunchTime)
            && (d.calls == [] <==> !w.webApp.value.checkLaunchTime))
      && (ev.KeyPress? || ev.KeyRelease? || ev.OtherEvent? ==> d.verdict == ToDelegate && d.calls == [])
      && (ev.Enter? ==> d.verdict == ToDelegate && d.calls == [CallSendWebOSMouse("Enter")])
      && (ev.Leave? ==> d.verdict == ToDelegate && d.calls == [CallSendWebOSMouse("Leave")])
      && (ev.FocusIn? ==> d.verdict == ToDelegate && d.calls == [CallFocus])
      && (ev.InputPanelVisible? ==>
            && d.verdict == ToDelegate
            && d.calls == [CallKeyboardVisibility(ev.visible, TruncateToInt(ev.height))])
  {
  }

  /** A keyboard height strictly between -1 and 1 reaches the application as
      0, which the input region treats as the keyboard being hidden. */
  lemma SubUnitKeyboardHeightBecomesZero(w: Window, visible: bool, height: real)
    requires w.webApp.Some? && -1.0 < height < 1.0
    ensures HandleEvent(w, InputPanelVisible(visible, height)).calls == [CallKeyboardVisibility(visible, 0)]
  {
  }

  lemma {:induction false} CountReleasesAppend(a: seq<AppCall>, b: seq<AppCall>)
    ensures CountReleases(a + b) == CountReleases(a) + CountReleases(b)
  {
    if |a| > 0 {
      assert (a + b)[1..] == a[1..] + b;
      CountReleasesAppend(a[1..], b);
    } else {
      assert a + b == b;
    }
  }

  /** 1 while a press waits for its release, else 0. */
  function Pending(w: Window): nat
  {
    if w.lastMouse == MousePress then 1 else 0
  }

  /** One event synthesizes a release only by retiring a pending press. */
  lemma HandleEventBalance(w: Window, ev: Event)
    ensures CountReleases(HandleEvent(w, ev).calls) + Pending(HandleEvent(w, ev).window)
         <= Pending(w) + (if ev.MouseButtonPress? then 1 else 0)
  {
    if w.webApp.Some? {
      match ev
      case WindowStateChange(s) =>
        if s == Minimized {
          FocusLossReleasesPendingPress(w, ev);
        } else {
          CountReleasesAppend([], [CallStateChanged(s)]);
        }
      case FocusOut =>
        FocusLossReleasesPendingPress(w, ev);
      case _ =>
    }
  }

  /** Events handled one after another; the calls made, in order. */
  function Run(w: Window, evs: seq<Event>): (Window, seq<AppCall>)
    decreases |evs|
  {
    if |evs| == 0 then (w, [])
    else
      var d := HandleEvent(w, evs[0]);
      var rest := Run(d.window, evs[1..]);
      (rest.0, d.calls + rest.1)
  }

  function CountPresses(evs: seq<Event>): nat
  {
    if |evs| == 0 then 0
    else (if evs[0].MouseButtonPress? then 1 else 0) + CountPresses(evs[1..])
  }

  /** Over any run of events, every synthesized release answers a distinct
      earlier press: releases plus a still-pending press never exceed the
      presses seen plus one pending at the start. */
  lemma {:induction false} SynthesizedReleasesMatchPresses(w: Window, evs: seq<Event>)
    ensures CountReleases(Run(w, evs).1) + Pending(Run(w, evs).0) <= CountPresses(evs) + Pending(w)
    decreases |evs|
  {
    if |evs| > 0 {
      var d := HandleEvent(w, evs[0]);
      HandleEventBalance(w, evs[0]);
      SynthesizedReleasesMatchPresses(d.window, evs[1..]);
      CountReleasesAppend(d.calls, Run(d.window, evs[1..]).1);
    }
  }

  /** setCursor: select the custom cursor for the argument; the cursor is
      disabled exactly when it is blanked. */
  function ApplyCursor(w: Window, cursor: CursorType, arg: string, hotspotX: int, hotspotY: int): Step<Window>
  {
    Step(w.(cursorEnabled := cursor != CursorBlank),
         [WindowSetCustomCursor(cursor, arg, hotspotX, hotspotY)])
  }

  /** setCursor with its comparisons as written. */
  function SetCursorAsWritten(w: Window, arg: string, hotspotX: int, hotspotY: int): (r: Step<Window>)
    ensures !r.state.cursorEnabled <==> arg == "default"
    ensures |r.effects| == 1 && r.effects[0].WindowSetCustomCursor? && r.effects[0].cursor != CursorPath
    ensures r.state == w.(cursorEnabled := arg != "default")
    ensures r.effects == [WindowSetCustomCursor(CursorSelection.CursorTypeAsWritten(arg), arg, hotspotX, hotspotY)]
  {
    CursorSelection.AsWrittenMisclassifies(arg);
    ApplyCursor(w, CursorSelection.CursorTypeAsWritten(arg), arg, hotspotX, hotspotY)
  }

  /** setCursor with the intended comparisons. */
  function SetCursor(w: Window, arg: string, hotspotX: int, hotspotY: int): (r: Step<Window>)
    ensures !r.state.cursorEnabled <==> arg == "blank"
    ensures r.state == w.(cursorEnabled := r.state.cursorEnabled)
    ensures r.effects == [WindowSetCustomCursor(CursorSelection.CursorTypeFor(arg), arg, hotspotX, hotspotY)]
  {
    CursorSelection.CursorTypeForClassifies(arg);
    ApplyCursor(w, CursorSelection.CursorTypeFor(arg), arg, hotspotX, hotspotY)
  }

  /** CheckKeyFilterTable: the mapped code and modifier for a listed key;
      0 and the caller's modifier untouched for any other. */
  function CheckKeyFilterTable(table: map<int, (int, int)>, keyCode: int, modifier: int): (r: (int, int))
    ensures keyCode !in table ==> r == (0, modifier)
    ensures keyCode in table ==> r == table[keyCode]
  {
    if |table| == 0 then (0, modifier)
    else if keyCode !in table then (0, modifier)
    else (table[keyCode].0, table[keyCode].1)
  }

  /** sendKeyCode: activate XInput on first use, then invoke the key. */
  function SendKeyCode(w: Window, keyCode: int): (r: Step<Window>)
    ensures r.state == w.(xinputActivated := true)
    ensures XInputActivate in r.effects <==> !w.xinputActivated
    ensures r.effects != [] && r.effects[|r.effects| - 1] == XInputInvokeAction(keyCode)
    ensures !w.xinputActivated ==> r.effects == [XInputActivate, XInputInvokeAction(keyCode)]
    ensures w.xinputActivated ==> r.effects == [XInputInvokeAction(keyCode)]
  {
    var activate := if !w.xinputActivated then [XInputActivate] else [];
    Step(w.(xinputActivated := true), activate + [XInputInvokeAction(keyCode)])
  }

  /** XInput is activated at most once over repeated key sends. */
  lemma SendKeyCodeActivatesOnce(w: Window, k1: int, k2: int)
    ensures SendKeyCode(SendKeyCode(w, k1).state, k2).effects == [XInputInvokeAction(k2)]
  {
  }
}

=== FILE: web_app.dfy ===
/** The web application's side of its Wayland window: activation and
    deactivation of the stage, focus, hiding and closing, the launch timer
    and the input region, driven by host-window state changes and page
    events. The host-window state belongs to the window and is passed in
    where the application reads it. */
module WebApp {
  import opened Types
  import InputRegion
  import LaunchTiming
  import LocationHints
  import KeyMasks

  /** How the application was launched and whether it is being closed;
      none of the layer's transitions change these. */
  datatype Mode = Mode(
    preloading: bool,           // launched as a preloaded application
    keepAlive: bool,
    overlay: bool,              // the window type is the overlay type
    closing: bool,
    forceClose: bool)

  datatype App = App(
    mode: Mode,
    focused: bool,
    hidden: bool,               // the window was explicitly hidden
    didActivateStage: bool,     // a frame swap already activated the stage
    crashed: bool,              // the page's renderer crashed
    addedToWindowMgr: bool,
    region: InputRegion.RegionState,
    launch: LaunchTiming.LaunchTimer)

  /** The application state right after construction, given its launch mode. */
  function InitialApp(preloading: bool, keepAlive: bool, overlay: bool): App
  {
    App(Mode(preloading, keepAlive, overlay, false, false), false, false, false, false, false,
        InputRegion.InitialRegion, LaunchTiming.InitialTimer)
  }

  /** The host window shows the application: default, maximized or fullscreen. */
  predicate IsActivated(host: HostState)
  {
    host == Fullscreen || host == Maximized || host == Default
  }

  predicate IsMinimized(host: HostState)
  {
    host == Minimized
  }

  /** A host window is never both activated and minimized, and a defined
      state is exactly one of the two. */
  lemma ActivatedAndMinimizedExclusive(host: HostState)
    ensures !(IsActivated(host) && IsMinimized(host))
    ensures host != Undefined <==> IsActivated(host) || IsMinimized(host)
  {
  }

  /** The effect list shows a stage activation / deactivation. */
  predicate Activates(effs: seq<Effect>) { PageResumeAll in effs }
  predicate Deactivates(effs: seq<Effect>) { PageSuspendAll in effs }

  /** The effect list asks the application base to close. */
  predicate Closes(effs: seq<Effect>) { AppClose in effs || AppForceClose in effs }

  const WindowTypeProperty: string := "_WEBOS_WINDOW_TYPE"
  const DisplayAffinityProperty: string := "displayAffinity"

  /** Window creation: the application's UI size and then the window are
      set to the requested size, or to the display size when either
      dimension is zero; then the location hint when it is a known one; then
      the window is attached to the application, and the window type and,
      when a display is given (`None` stands for the undefined display id),
      the display affinity are set as window properties. */
  function InitEffects(width: int, height: int, displayWidth: int, displayHeight: int,
                       locationHint: string, windowType: PropertyValue,
                       displayAffinity: Option<PropertyValue>): (effs: seq<Effect>)
    ensures |effs| >= 4
    ensures effs[2..] == LocationHints.LocationHintEffects(locationHint) + [WindowAttachApp]
                         + CreationProperties(windowType, displayAffinity)
    ensures width != 0 && height != 0 ==>
      effs[0] == AppSetUiSize(width, height) && effs[1] == WindowInit(width, height)
    ensures width == 0 || height == 0 ==>
      effs[0] == AppSetUiSize(displayWidth, displayHeight) && effs[1] == WindowInit(displayWidth, displayHeight)
    ensures displayAffinity.Some? ==>
      effs[|effs| - 1] == WindowSetProperty(DisplayAffinityProperty, displayAffinity.value.text)
  {
    var size := if width != 0 && height != 0 then (width, height) else (displayWidth, displayHeight);
    var hints := LocationHints.LocationHintEffects(locationHint);
    var props := CreationProperties(windowType, displayAffinity);
    var rest := hints + [WindowAttachApp] + props;
    var effs := [AppSetUiSize(size.0, size.1), WindowInit(size.0, size.1)] + rest;
    assert effs[2..] == rest;
    effs
  }

  /** The window properties set at creation: the window type, then the
      display affinity when a display is given. Neither is a key-policy
      property, so each is only forwarded. */
  function CreationProperties(windowType: PropertyValue, displayAffinity: Option<PropertyValue>): (effs: seq<Effect>)
    ensures |effs| == (if displayAffinity.Some? then 2 else 1)
    ensures effs[0] == WindowSetProperty(WindowTypeProperty, windowType.text)
    ensures displayAffinity.Some? ==>
      effs[1] == WindowSetProperty(DisplayAffinityProperty, displayAffinity.value.text)
  {
    assert WindowTypeProperty[7] != KeyMasks.BackPolicyProperty[7];
    assert WindowTypeProperty[7] != KeyMasks.ExitPolicyProperty[7];
    var affinity :=
      if displayAffinity.Some? then
        assert DisplayAffinityProperty[0] != KeyMasks.BackPolicyProperty[0];
        assert DisplayAffinityProperty[0] != KeyMasks.ExitPolicyProperty[0];
        KeyMasks.WindowPropertyEffects(DisplayAffinityProperty, displayAffinity.value)
      else [];
    KeyMasks.WindowPropertyEffects(WindowTypeProperty, windowType) + affinity
  }

  /** onStageActivated: reload the default page after a crash, resume the
      page, make it visible, become the active instance, show the window. */
  function StageActivated(a: App): (r: Step<App>)
    ensures r.state == a.(crashed := false)
    ensures Activates(r.effects) && !Deactivates(r.effects)
    ensures PageReloadDefault in r.effects <==> a.crashed
    ensures a.crashed ==> r.effects[0] == PageReloadDefault
    ensures PageSetVisibility(Visible) in r.effects && AppSetActiveInstance in r.effects
    ensures r.effects[|r.effects| - 1] == WindowShow
    ensures !a.crashed ==>
      r.effects == [PageResumeAll, PageSetVisibility(Visible), AppSetActiveInstance, WindowShow]
    ensures a.crashed ==>
      r.effects == [PageReloadDefault, PageResumeAll, PageSetVisibility(Visible), AppSetActiveInstance, WindowShow]
    ensures forall e | e in r.effects ::
      e in {PageReloadDefault, PageResumeAll, PageSetVisibility(Visible), AppSetActiveInstance, WindowShow}
  {
    var effs := ActivationEffects(a.crashed);
    if a.crashed then
      assert effs == [PageReloadDefault, PageResumeAll, PageSetVisibility(Visible), AppSetActiveInstance, WindowShow];
      Step(a.(crashed := false), effs)
    else
      assert effs == [PageResumeAll, PageSetVisibility(Visible), AppSetActiveInstance, WindowShow];
      Step(a.(crashed := false), effs)
  }

  function ActivationEffects(crashed: bool): seq<Effect>
  {
    (if crashed then [PageReloadDefault] else [])
      + [PageResumeAll, PageSetVisibility(Visible), AppSetActiveInstance, WindowShow]
  }

  /** focus: the flag is always set; the page gets focus unless minimized. */
  function Focus(a: App, host: HostState): (r: Step<App>)
    ensures r.state == a.(focused := true)
    ensures PageSetFocus(true) in r.effects <==> !IsMinimized(host)
    ensures forall e | e in r.effects :: e == PageSetFocus(true)
    ensures IsMinimized(host) ==> r.effects == []
    ensures !IsMinimized(host) ==> r.effects == [PageSetFocus(true)]
  {
    Step(a.(focused := true), if !IsMinimized(host) then [PageSetFocus(true)] else [])
  }

  /** unfocus: both the flag and the page's focus are cleared. */
  function Unfocus(a: App): (r: Step<App>)
    ensures !r.state.focused && r.state == a.(focused := false)
    ensures r.effects == [PageSetFocus(false)]
  {
    Step(a.(focused := false), [PageSetFocus(false)])
  }

  /** onStageDeactivated: suspend media, unfocus, hide and suspend the
      page, and re-arm activation by the next frame swap. */
  function StageDeactivated(a: App): (r: Step<App>)
    ensures r.state == a.(focused := false, didActivateStage := false)
    ensures r.effects == [PageSuspendMedia, PageSetFocus(false), PageSetVisibility(Hidden), PageSuspendAll]
    ensures Deactivates(r.effects) && !Activates(r.effects) && !Closes(r.effects)
  {
    var u := Unfocus(a);
    Step(u.state.(didActivateStage := false),
         [PageSuspendMedia] + u.effects + [PageSetVisibility(Hidden), PageSuspendAll])
  }

  /** stateChanged: ignored while closing; a shown state applies the input
      region and activates the stage; minimized deactivates it; any other
      state does nothing. */
  function StateChanged(a: App, newState: HostState): (r: Step<App>)
    ensures r.state.mode == a.mode
    ensures a.mode.closing || newState == Undefined ==> r == Step(a, [])
    ensures !a.mode.closing && IsActivated(newState) ==>
      && r.state == a.(region := InputRegion.ApplyInputRegion(a.region).state, crashed := false)
      && r.effects == InputRegion.ApplyInputRegion(a.region).effects + StageActivated(a).effects
    ensures !a.mode.closing && IsMinimized(newState) ==>
      && r == StageDeactivated(a)
      && Deactivates(r.effects) && !Activates(r.effects)
      && !r.state.focused && !r.state.didActivateStage
      && r.state.region == a.region
  {
    if a.mode.closing then Step(a, [])
    else if IsActivated(newState) then
      var applied := InputRegion.ApplyInputRegion(a.region);
      var act := StageActivated(a.(region := applied.state));
      Step(act.state, applied.effects + act.effects)
    else if IsMinimized(newState) then
      StageDeactivated(a)
    else
      Step(a, [])
  }

  /** A shown state clears the crash flag, keeps the rectangles, and
      leaves the region enabled exactly when it was enabled or non-empty. */
  lemma StateChangedEnablesRegion(a: App, newState: HostState)
    requires !a.mode.closing && IsActivated(newState)
    ensures var r := StateChanged(a, newState);
      && !r.state.crashed
      && r.state.region.rects == a.region.rects
      && (r.state.region.enabled <==> a.region.enabled || a.region.rects != [])
  {
  }

  /** A shown state activates without deactivating, and pushes a disabled,
      non-empty region to the window before anything else, and only then. */
  lemma StateChangedAppliesRegionThenActivates(a: App, newState: HostState)
    requires !a.mode.closing && IsActivated(newState)
    ensures var r := StateChanged(a, newState);
      && Activates(r.effects) && !Deactivates(r.effects)
      && (WindowSetInputRegion(a.region.rects) in r.effects <==> !a.region.enabled && a.region.rects != [])
      && (!a.region.enabled && a.region.rects != [] ==> r.effects[0] == WindowSetInputRegion(a.region.rects))
  {
    var applied := InputRegion.ApplyInputRegion(a.region);
    PushBeforeActivation(applied.effects, a.crashed, a.region.rects, !a.region.enabled && a.region.rects != []);
  }

  /** An optional region push followed by an activation that does not
      push: the push is there exactly when made, and comes first. */
  lemma PushBeforeActivation(push: seq<Effect>, crashed: bool, rects: seq<Rect>, pushed: bool)
    requires pushed ==> push == [WindowSetInputRegion(rects)]
    requires !pushed ==> push == []
    ensures var effs := push + ActivationEffects(crashed);
      && Activates(effs) && !Deactivates(effs)
      && (WindowSetInputRegion(rects) in effs <==> pushed)
      && (pushed ==> effs[0] == WindowSetInputRegion(rects))
  {
    if !pushed {
      assert push + ActivationEffects(crashed) == ActivationEffects(crashed);
    }
  }

  /** stateAboutToChange: about to be minimized, suspend media and report
      the page hidden. */
  function StateAboutToChange(a: App, willBe: HostState): (r: Step<App>)
    ensures r.state == a
    ensures IsMinimized(willBe) ==> r.effects == [PageSuspendMedia, PageSetVisibility(Hidden)]
    ensures !IsMinimized(willBe) ==> r.effects == []
  {
    if IsMinimized(willBe) then Step(a, [PageSuspendMedia, PageSetVisibility(Hidden)])
    else Step(a, [])
  }

  /** raise: an overlay, or a kept-alive application that is not
      minimized, is activated directly; otherwise fullscreen is requested
      from the compositor. A minimized application is reported visible. */
  function Raise(a: App, host: HostState): (r: Step<App>)
    ensures r.state.mode == a.mode
    ensures r.effects != []
    ensures a.mode.overlay || (a.mode.keepAlive && !IsMinimized(host)) ==>
      && r.state == a.(crashed := false)
      && Activates(r.effects) && WindowRequestHostState(Fullscreen) !in r.effects
    ensures !(a.mode.overlay || (a.mode.keepAlive && !IsMinimized(host))) ==>
      r.state == a && r.effects[0] == WindowRequestHostState(Fullscreen) && !Activates(r.effects)
    ensures IsMinimized(host) <==> r.effects[|r.effects| - 1] == PageSetVisibility(Visible)
    ensures var visible := if IsMinimized(host) then [PageSetVisibility(Visible)] else [];
      if a.mode.overlay || (a.mode.keepAlive && !IsMinimized(host))
      then r.effects == StageActivated(a).effects + visible
      else r.effects == [WindowRequestHostState(Fullscreen)] + visible
  {
    var visible := if IsMinimized(host) then [PageSetVisibility(Visible)] else [];
    if a.mode.overlay || (a.mode.keepAlive && !IsMinimized(host)) then
      var act := StageActivated(a);
      assert WindowRequestHostState(Fullscreen) !in act.effects;
      Step(act.state, act.effects + visible)
    else
      Step(a, [WindowRequestHostState(Fullscreen)] + visible)
  }

  /** hide: only a kept-alive application, or a forced hide, deactivates,
      hides the window and remembers that it is hidden. */
  function Hide(a: App, forced: bool): (r: Step<App>)
    ensures r.state.mode == a.mode
    ensures !(a.mode.keepAlive || forced) ==> r == Step(a, [])
    ensures a.mode.keepAlive || forced ==>
      && r.state == a.(focused := false, didActivateStage := false, hidden := true)
      && r.effects == StageDeactivated(a).effects + [WindowHide]
    ensures !Closes(r.effects)
  {
    if a.mode.keepAlive || forced then
      var d := StageDeactivated(a);
      Step(d.state.(hidden := true), d.effects + [WindowHide])
    else Step(a, [])
  }

  /** hideWindow: refused (false) once the page's load-error page has
      finished; otherwise closes the virtual keyboard, force-hides and
      leaves the window manager. */
  function HideWindow(a: App, loadErrorPageFinished: bool): (r: (Step<App>, bool))
    ensures r.0.state.mode == a.mode
    ensures r.1 <==> !loadErrorPageFinished
    ensures !r.1 ==> r.0 == Step(a, [])
    ensures r.1 ==>
      && r.0.state == a.(focused := false, didActivateStage := false, hidden := true, addedToWindowMgr := false)
      && r.0.effects == [PageCloseVkb] + StageDeactivated(a).effects + [WindowHide]
      && Deactivates(r.0.effects)
    ensures !Closes(r.0.effects)
  {
    if loadErrorPageFinished then (Step(a, []), false)
    else
      var h := Hide(a, true);
      (Step(h.state.(addedToWindowMgr := false), [PageCloseVkb] + h.effects), true)
  }

  /** doClose: a forced close wins; a kept-alive application is hidden
      instead of closed when hiding is possible; otherwise it closes. */
  function DoClose(a: App, loadErrorPageFinished: bool): (r: Step<App>)
    ensures r.state.mode == a.mode
    ensures a.mode.forceClose ==> r == Step(a, [AppForceClose])
    ensures !a.mode.forceClose && a.mode.keepAlive && !loadErrorPageFinished ==>
      && r == HideWindow(a, loadErrorPageFinished).0
      && r.state == a.(focused := false, didActivateStage := false, hidden := true, addedToWindowMgr := false)
      && !Closes(r.effects)
    ensures !a.mode.forceClose && (!a.mode.keepAlive || loadErrorPageFinished) ==> r == Step(a, [AppClose])
  {
    if a.mode.forceClose then Step(a, [AppForceClose])
    else
      var hidden := HideWindow(a, loadErrorPageFinished);
      if a.mode.keepAlive && hidden.1 then hidden.0
      else Step(a, [AppClose])
  }

  /** goBackground: an overlay tries to close; any other window asks the
      compositor to minimize it. */
  function GoBackground(a: App, loadErrorPageFinished: bool): (r: Step<App>)
    ensures r.state.mode == a.mode
    ensures a.mode.overlay ==> r == DoClose(a, loadErrorPageFinished)
    ensures !a.mode.overlay ==> r == Step(a, [WindowRequestHostState(Minimized)])
  {
    if a.mode.overlay then DoClose(a, loadErrorPageFinished)
    else Step(a, [WindowRequestHostState(Minimized)])
  }

  /** showWindow: ignored for a preloaded application; otherwise un-hides
      and activates the stage and joins the window manager. */
  function ShowWindow(a: App): (r: Step<App>)
    ensures r.state.mode == a.mode
    ensures a.mode.preloading ==> r == Step(a, [])
    ensures !a.mode.preloading ==>
      && r.state == a.(hidden := false, crashed := false, addedToWindowMgr := true)
      && r.effects == StageActivated(a).effects + [AppShowWindow]
      && Activates(r.effects)
  {
    if a.mode.preloading then Step(a, [])
    else
      var act := StageActivated(a.(hidden := false));
      Step(act.state.(addedToWindowMgr := true), act.effects + [AppShowWindow])
  }

  /** firstFrameVisuallyCommitted: a visible, non-preloaded application is
      shown; with prerendering, the next frame swap activates again. */
  function FirstFrameVisuallyCommitted(a: App, usePrerendering: bool): (r: Step<App>)
    ensures r.state.mode == a.mode
    ensures a.hidden || a.mode.preloading ==> r == Step(a, [])
    ensures !a.hidden && !a.mode.preloading ==>
      && r.state == a.(crashed := false, addedToWindowMgr := true,
                       didActivateStage := a.didActivateStage && !usePrerendering)
      && r.effects == ShowWindow(a).effects
      && Activates(r.effects)
  {
    if !a.hidden && !a.mode.preloading then
      ShowWindow(if usePrerendering then a.(didActivateStage := false) else a)
    else Step(a, [])
  }

  /** didSwapPageCompositorFrame: the first frame swap of a visible,
      non-preloaded application activates the stage, once. */
  function DidSwapPageCompositorFrame(a: App): (r: Step<App>)
    ensures r.state.mode == a.mode
    ensures Activates(r.effects) <==> !a.didActivateStage && !a.hidden && !a.mode.preloading
    ensures !Activates(r.effects) ==> r == Step(a, [])
    ensures Activates(r.effects) ==>
      r.state == a.(crashed := false, didActivateStage := true) && r.effects == StageActivated(a).effects
  {
    if !a.didActivateStage && !a.hidden && !a.mode.preloading then
      var act := StageActivated(a);
      Step(act.state.(didActivateStage := true), act.effects)
    else Step(a, [])
  }

  /** A second frame swap never activates again. */
  lemma SwapActivatesAtMostOnce(a: App)
    ensures var s := DidSwapPageCompositorFrame(a).state;
      DidSwapPageCompositorFrame(s) == Step(s, [])
  {
  }

  /** Deactivation re-arms activation by the next frame swap. */
  lemma DeactivationRearmsSwapActivation(a: App)
    requires !a.hidden && !a.mode.preloading
    ensures Activates(DidSwapPageCompositorFrame(StageDeactivated(a).state).effects)
  {
  }

  /** suspendAppRendering / resumeAppRendering. */
  function SuspendAppRendering(a: App): (r: Step<App>)
    ensures r.state.mode == a.mode
    ensures r.state == a.(focused := false, didActivateStage := false)
    ensures r.effects == StageDeactivated(a).effects + [WindowHide]
    ensures Deactivates(r.effects)
  {
    var d := StageDeactivated(a);
    Step(d.state, d.effects + [WindowHide])
  }

  function ResumeAppRendering(a: App): (r: Step<App>)
    ensures Activates(r.effects) && r.effects[0] == WindowShow
    ensures r.state == a.(crashed := false)
    ensures r.effects == [WindowShow] + StageActivated(a).effects
  {
    var act := StageActivated(a);
    Step(act.state, [WindowShow] + act.effects)
  }

  /** keyboardVisibilityChanged: report to the application base, then move
      the input region by the keyboard height. */
  function KeyboardVisibilityChanged(a: App, visible: bool, height: int): (r: Step<App>)
    ensures r.state == a.(region := InputRegion.MoveInputRegion(a.region, height).state)
    ensures r.effects != [] && r.effects[0] == AppKeyboardVisibility(visible, height)
    ensures r.effects[1..] == InputRegion.MoveInputRegion(a.region, height).effects
  {
    var mv := InputRegion.MoveInputRegion(a.region, height);
    Step(a.(region := mv.state), [AppKeyboardVisibility(visible, height)] + mv.effects)
  }

  /** sendWebOSMouseEvent: only Enter and Leave reach the page. */
  function SendWebOSMouseEvent(name: string): (effs: seq<Effect>)
    ensures effs != [] <==> name == "Enter" || name == "Leave"
    ensures forall e | e in effs :: e == PageDispatchWebOSMouse(name)
    ensures name == "Enter" || name == "Leave" ==> effs == [PageDispatchWebOSMouse(name)]
    ensures !(name == "Enter" || name == "Leave") ==> effs == []
  {
    if name == "Enter" || name == "Leave" then [PageDispatchWebOSMouse(name)] else []
  }

  /** The launch timer, started only for a visible window. */
  function StartLaunchTimer(a: App): (r: App)
    ensures a.hidden ==> r == a
    ensures !a.hidden ==> r.launch.running
    ensures r.(launch := a.launch) == a
  {
    a.(launch := LaunchTiming.Start(a.launch, a.hidden))
  }

  function LaunchFrameSwapped(a: App, elapsedMs: int, timeoutMs: int): (r: App)
    ensures r.(launch := a.launch) == a
    ensures a.launch.running ==> r.launch.lastSwappedMs == elapsedMs && r.launch.timeoutArmed
    ensures !a.launch.running ==> r == a
  {
    a.(launch := LaunchTiming.FrameSwapped(a.launch, elapsedMs, timeoutMs))
  }

  function LaunchTimeout(a: App): (r: App)
    ensures r.(launch := a.launch) == a
    ensures a.launch.running ==> !r.launch.running && !r.launch.timeoutArmed
    ensures !a.launch.running ==> r == a
  {
    a.(launch := LaunchTiming.Timeout(a.launch))
  }

  /** Every application transition the platform layer drives. */
  datatype Op =
    | OpStateChanged(newState: HostState)
    | OpStateAboutToChange(willBe: HostState)
    | OpRaise
    | OpGoBackground
    | OpHide(forced: bool)
    | OpHideWindow
    | OpDoClose
    | OpFocus
    | OpUnfocus
    | OpShowWindow
    | OpFirstFrameVisuallyCommitted(usePrerendering: bool)
    | OpDidSwapPageCompositorFrame
    | OpSuspendAppRendering
    | OpResumeAppRendering
    | OpKeyboardVisibilityChanged(visible: bool, height: int)
    | OpStartLaunchTimer
    | OpLaunchFrameSwapped(elapsedMs: int, timeoutMs: int)
    | OpLaunchTimeout

  /** One transition, given the host-window state and whether the page's
      load-error page has finished. */
  function ApplyOp(a: App, host: HostState, loadErrorPageFinished: bool, op: Op): Step<App>
  {
    match op
    case OpStateChanged(s) => StateChanged(a, s)
    case OpStateAboutToChange(s) => StateAboutToChange(a, s)
    case OpRaise => Raise(a, host)
    case OpGoBackground => GoBackground(a, loadErrorPageFinished)
    case OpHide(forced) => Hide(a, forced)
    case OpHideWindow => HideWindow(a, loadErrorPageFinished).0
    case OpDoClose => DoClose(a, loadErrorPageFinished)
    case OpFocus => Focus(a, host)
    case OpUnfocus => Unfocus(a)
    case OpShowWindow => ShowWindow(a)
    case OpFirstFrameVisuallyCommitted(p) => FirstFrameVisuallyCommitted(a, p)
    case OpDidSwapPageCompositorFrame => DidSwapPageCompositorFrame(a)
    case OpSuspendAppRendering => SuspendAppRendering(a)
    case OpResumeAppRendering => ResumeAppRendering(a)
    case OpKeyboardVisibilityChanged(v, h) => KeyboardVisibilityChanged(a, v, h)
    case OpStartLaunchTimer => Step(StartLaunchTimer(a), [])
    case OpLaunchFrameSwapped(e, t) => Step(LaunchFrameSwapped(a, e, t), [])
    case OpLaunchTimeout => Step(LaunchTimeout(a), [])
  }

  /** A frame swap marks the stage activated only for a shown, non-preloaded
      application, and hiding clears the mark. */
  predicate SwapMarkConsistent(a: App)
  {
    a.didActivateStage ==> !a.hidden && !a.mode.preloading
  }

  lemma OpsPreserveSwapMark(a: App, host: HostState, loadErrorPageFinished: bool, op: Op)
    requires SwapMarkConsistent(a)
    ensures SwapMarkConsistent(ApplyOp(a, host, loadErrorPageFinished, op).state)
  {
  }

  /** One transition together with the host state and load-error answer it
      sees. */
  datatype Input = Input(host: HostState, loadErrorPageFinished: bool, op: Op)

  /** Transitions applied one after another; the final state. */
  function RunOps(a: App, inputs: seq<Input>): App
    decreases |inputs|
  {
    if |inputs| == 0 then a
    else RunOps(ApplyOp(a, inputs[0].host, inputs[0].loadErrorPageFinished, inputs[0].op).state, inputs[1..])
  }

  /** A freshly constructed application is shown, unfocused and not yet
      activated, and whatever transitions follow, a frame-swap mark is only
      ever held by a shown, non-preloaded application. */
  lemma {:induction false} FromInitialAppSwapMarkConsistent(preloading: bool, keepAlive: bool, overlay: bool,
                                                             inputs: seq<Input>)
    ensures var a := InitialApp(preloading, keepAlive, overlay);
      && !a.hidden && !a.focused && !a.didActivateStage && !a.mode.closing
      && a.mode.preloading == preloading && a.mode.keepAlive == keepAlive && a.mode.overlay == overlay
    ensures SwapMarkConsistent(RunOps(InitialApp(preloading, keepAlive, overlay), inputs))
  {
    RunOpsKeepSwapMark(InitialApp(preloading, keepAlive, overlay), inputs);
  }

  lemma {:induction false} RunOpsKeepSwapMark(a: App, inputs: seq<Input>)
    requires SwapMarkConsistent(a)
    ensures SwapMarkConsistent(RunOps(a, inputs))
    decreases |inputs|
  {
    if |inputs| > 0 {
      var i := inputs[0];
      OpsPreserveSwapMark(a, i.host, i.loadErrorPageFinished, i.op);
      RunOpsKeepSwapMark(ApplyOp(a, i.host, i.loadErrorPageFinished, i.op).state, inputs[1..]);
    }
  }

  /** Only showWindow brings a hidden application back; every other
      transition leaves it hidden. */
  lemma OnlyShowWindowUnhides(a: App, host: HostState, loadErrorPageFinished: bool, op: Op)
    requires a.hidden && !op.OpShowWindow?
    ensures ApplyOp(a, host, loadErrorPageFinished, op).state.hidden
  {
    match op
    case OpStateChanged(_) =>
    case OpStateAboutToChange(_) =>
    case OpRaise =>
    case OpGoBackground =>
    case OpHide(_) =>
    case OpHideWindow =>
    case OpDoClose =>
    case OpFocus =>
    case OpUnfocus =>
    case OpShowWindow =>
    case OpFirstFrameVisuallyCommitted(_) =>
    case OpDidSwapPageCompositorFrame =>
    case OpSuspendAppRendering =>
    case OpResumeAppRendering =>
    case OpKeyboardVisibilityChanged(_, _) =>
    case OpStartLaunchTimer =>
    case OpLaunchFrameSwapped(_, _) =>
    case OpLaunchTimeout =>
  }

  /** The launch mode and the closing flags are never changed by the
      layer's transitions. */
  lemma OpsKeepLaunchMode(a: App, host: HostState, loadErrorPageFinished: bool, op: Op)
    ensures var r := ApplyOp(a, host, loadErrorPageFinished, op).state;
      r.mode == a.mode
  {
    match op
    case OpStateChanged(_) =>
    case OpStateAboutToChange(_) =>
    case OpRaise =>
    case OpGoBackground =>
    case OpHide(_) =>
    case OpHideWindow =>
    case OpDoClose =>
    case OpFocus =>
    case OpUnfocus =>
    case OpShowWindow =>
    case OpFirstFrameVisuallyCommitted(_) =>
    case OpDidSwapPageCompositorFrame =>
    case OpSuspendAppRendering =>
    case OpResumeAppRendering =>
    case OpKeyboardVisibilityChanged(_, _) =>
    case OpStartLaunchTimer =>
    case OpLaunchFrameSwapped(_, _) =>
    case OpLaunchTimeout =>
  }

  /** Transitions other than the launch-timer ones leave the timer alone. */
  lemma OnlyLaunchOpsTouchTimer(a: App, host: HostState, loadErrorPageFinished: bool, op: Op)
    requires !op.OpStartLaunchTimer? && !op.OpLaunchFrameSwapped? && !op.OpLaunchTimeout?
    ensures ApplyOp(a, host, loadErrorPageFinished, op).state.launch == a.launch
  {
    match op
    case OpStateChanged(_) =>
    case OpStateAboutToChange(_) =>
    case OpRaise =>
    case OpGoBackground =>
    case OpHide(_) => HidingOpsKeepTimer(a, host, loadErrorPageFinished, op);
    case OpHideWindow => HidingOpsKeepTimer(a, host, loadErrorPageFinished, op);
    case OpDoClose => HidingOpsKeepTimer(a, host, loadErrorPageFinished, op);
    case OpFocus => HidingOpsKeepTimer(a, host, loadErrorPageFinished, op);
    case OpUnfocus => HidingOpsKeepTimer(a, host, loadErrorPageFinished, op);
    case _ => LaterOpsKeepTimer(a, host, loadErrorPageFinished, op);
  }

  /** The hide, close and focus operations keep the launch timer. */
  lemma HidingOpsKeepTimer(a: App, host: HostState, loadErrorPageFinished: bool, op: Op)
    requires op.OpHide? || op.OpHideWindow? || op.OpDoClose? || op.OpFocus? || op.OpUnfocus?
    ensures ApplyOp(a, host, loadErrorPageFinished, op).state.launch == a.launch
  {
    match op
    case OpHide(_) =>
    case OpHideWindow =>
    case OpDoClose =>
    case OpFocus =>
    case OpUnfocus =>
  }

  /** The rendering, frame and keyboard operations keep the launch timer. */
  lemma LaterOpsKeepTimer(a: App, host: HostState, loadErrorPageFinished: bool, op: Op)
    requires op.OpShowWindow? || op.OpFirstFrameVisuallyCommitted? || op.OpDidSwapPageCompositorFrame?
          || op.OpSuspendAppRendering? || op.OpResumeAppRendering? || op.OpKeyboardVisibilityChanged?
    ensures ApplyOp(a, host, loadErrorPageFinished, op).state.launch == a.launch
  {
    match op
    case OpShowWindow =>
    case OpFirstFrameVisuallyCommitted(_) =>
    case OpDidSwapPageCompositorFrame =>
    case OpSuspendAppRendering =>
    case OpResumeAppRendering =>
    case OpKeyboardVisibilityChanged(_, _) =>
  }
}

=== FILE: window_pool.dfy ===
/** The single-slot pool of host windows: one window may be prepared ahead
    of the next launch, and the next application to start takes it, or a
    fresh window when none was prepared. */
module WindowPool {
  import opened Types
  import opened WaylandWindow

  datatype Pool = Pool(slot: Option<Window>)

  const EmptyPool: Pool := Pool(None)

  /** createWindow: a new window sized 1x1 until its application sizes it. */
  function CreateWindow(cursorByDefault: bool): (w: Window)
    ensures w.size == Sized(1, 1)
    ensures w.webApp.None? && w.lastMouse == NoMouse && !w.xinputActivated
    ensures w.(size := Unsized) == NewWindow(cursorByDefault)
  {
    NewWindow(cursorByDefault).(size := Sized(1, 1))
  }

  /** take: hand out the prepared window, or a freshly constructed one, and
      leave the slot empty. */
  function Take(p: Pool, cursorByDefault: bool): (r: (Window, Pool))
    ensures r.1 == EmptyPool
    ensures p.slot.Some? ==> r.0 == p.slot.value
    ensures p.slot.None? ==> r.0 == NewWindow(cursorByDefault)
  {
    match p.slot
    case Some(w) => (w, EmptyPool)
    case None => (NewWindow(cursorByDefault), EmptyPool)
  }

  /** prepare: fill an empty slot; a full slot is left alone. */
  function Prepare(p: Pool, cursorByDefault: bool): (r: Pool)
    ensures r.slot.Some?
    ensures p.slot.Some? ==> r == p
    ensures p.slot.None? ==> r.slot.value.size == Sized(1, 1)
  {
    if p.slot.Some? then p else Pool(Some(CreateWindow(cursorByDefault)))
  }

  /** Preparing again changes nothing. */
  lemma PrepareIdempotent(p: Pool, cursorByDefault: bool)
    ensures Prepare(Prepare(p, cursorByDefault), cursorByDefault) == Prepare(p, cursorByDefault)
  {
  }

  /** Taking after preparing an empty pool hands out the prepared 1x1 window
      and empties the slot; the pool holds at most one window at any time. */
  lemma TakeAfterPrepare(cursorByDefault: bool)
    ensures Take(Prepare(EmptyPool, cursorByDefault), cursorByDefault)
         == (CreateWindow(cursorByDefault), EmptyPool)
  {
  }

  /** Two takes in a row: the second never sees the first one's window. */
  lemma SecondTakeIsFresh(p: Pool, cursorByDefault: bool)
    ensures Take(Take(p, cursorByDefault).1, cursorByDefault).0 == NewWindow(cursorByDefault)
  {
  }
}
